=== FILE: README.md ===
# BasicUpdater update-decision core, in Dafny

BasicUpdater is a small Swift package. It lets a macOS application check the
GitHub Releases of its repository and offer the user an update. This project
models the package's update-decision logic as pure Dafny functions over
immutable data and proves properties about them. The logic covers:

- **GitHub records** (`GitHub`, `GitHubLemmas`): `GithubRelease`,
  `GithubUser`, `GithubAsset` and `AssetState`.
  - Their coding-key tables map each stored property to a snake_case JSON key.
  - The synthesized `Codable` conformance is modelled:
    - decoding reads a JSON object, already parsed into a map, one key per `CodingKeys` case in the order the cases are declared, so the first fault in that order is the error reported;
    - a required key uses `decode(_:forKey:)` and an optional one `decodeIfPresent(_:forKey:)`;
    - encoding omits an optional field that is nil.
  - Proved:
    - the key tables are injective;
    - decoding an encoded record gives it back;
    - a missing required key always fails;
    - a missing optional key decodes to nil;
    - `AssetState` accepts exactly `"uploaded"` and `"open"`.
- **Settings** (`Settings`): the `autoCheckForUpdates` and `skippedVersions`
  properties are reads and writes over the user-defaults suite, modelled as a
  map from keys to property-list values, with their defaults (`true` and the
  empty list).
- **Release URL** (`ReleaseUrl`, `Decimal`): `releaseURL(max:)` rewrites the
  project URL's components into the releases endpoint. The host becomes
  `api.github.com`, the path becomes `/repos<path>/releases`, and the query
  becomes the single item `per_page=<max>`. The scheme, user, password, port
  and fragment are kept from the project URL. The page size is rendered as
  Swift renders an `Int` in string interpolation.
- **The updater** (`BasicUpdater`):
  - the initializer's seeding of the auto-check key and its initial check;
  - the default arguments of the initializer and of `checkForUpdates`;
  - `shouldUpdateTo`, which rules out skipped tags and otherwise defers to the
    application's predicate;
  - the loop in `checkForUpdates`, which offers the first qualifying release
    and stops there;
  - the "up to date" alert, which appears only when `showIfLatest` is set;
  - the error path, on which fetch and decoding errors are only logged.
- **The prompt** (`UpdaterVC`):
  - `showRelease` records the release's tag and the selected asset's download link;
  - `downloadButtonClicked` opens that link, or only alerts when there is none;
  - `surpressVersionClicked` appends the tag to the skip list.

The application's update predicate (`shouldUpdateTo:`) is a function-valued
field of the `Updater` datatype. Its asset selector (`assetToUse:`) is the
datatype `AssetSelector`: either the default `FirstAsset` or a `Custom`
function. The network is a function parameter `fetch` that answers a request
URL with a parsed JSON document or an error message. URLs and dates are
opaque values holding their wire string. Swift's `Int` is the 64-bit subset
type `GitHub.Int`; a JSON number outside that range fails with
`dataCorrupted`.

Facts of the code that the model keeps:

- `surpressVersionClicked` appends the tag without checking for an existing
  copy (UpdaterVC.swift:84), so the skip list is a sequence that may hold
  duplicates. No library code removes a tag; the public `skippedVersions`
  setter (BasicUpdater.swift:34-37) writes whatever list it is given.
- The default asset selector is `assets.first!` (BasicUpdater.swift:54-56).
  `SelectAsset` therefore requires a non-empty list under that selector, and
  `UpdaterVC.AssetlessOfferTraps` shows that a check can reach it with an
  empty list.
- `maxReleases` goes into the request URL unchanged
  (BasicUpdater.swift:96, 110).
- `checkForUpdates` starts a new `Task` on every call (BasicUpdater.swift:108);
  the model decides each call on its own.

## Model

| member | source | states |
|---|---|---|
| GitHub.AssetStateOf | Sources/BasicUpdater/GitHub.swift:80-83 | `AssetState(rawValue:)` succeeds exactly on `"uploaded"` and `"open"`, and the state it returns has that raw value. |
| GitHub.AsState | Sources/BasicUpdater/GitHub.swift:77-83 | Decoding the `state` field succeeds exactly when the JSON value is the string `"uploaded"` or `"open"`. |
| GitHub.ReleaseKeyOf | Sources/BasicUpdater/GitHub.swift:34-45 | A JSON key read through the release key table finds only the property whose wire key it is, and a string that is no wire key finds nothing. |
| GitHub.ReleaseKeyOfWireKey | Sources/BasicUpdater/GitHub.swift:34-45 | Reading any release property's wire key back finds that property. |
| GitHub.UserKeyOf | Sources/BasicUpdater/GitHub.swift:56-62 | The same lookup for the user key table finds only the property whose wire key it is. |
| GitHub.UserKeyOfWireKey | Sources/BasicUpdater/GitHub.swift:56-62 | Reading any user property's wire key back finds that property. |
| GitHub.AssetKeyOf | Sources/BasicUpdater/GitHub.swift:86-95 | The same lookup for the asset key table finds only the property whose wire key it is. |
| GitHub.AssetKeyOfWireKey | Sources/BasicUpdater/GitHub.swift:86-95 | Reading any asset property's wire key back finds that property. |
| GitHub.ReleaseWireKeySnakeCase | Sources/BasicUpdater/GitHub.swift:34-45 | Every release JSON key is a non-empty lower-case snake_case name. |
| GitHub.UserWireKeySnakeCase | Sources/BasicUpdater/GitHub.swift:56-62 | Every user JSON key is a non-empty lower-case snake_case name. |
| GitHub.AssetWireKeySnakeCase | Sources/BasicUpdater/GitHub.swift:86-95 | Every asset JSON key is a non-empty lower-case snake_case name. |
| GitHub.ReleaseWireKeyInjective | Sources/BasicUpdater/GitHub.swift:34-45 | No two release properties share a JSON key (e.g. `tagName`↔`tag_name`, `discussionURL`↔`discussions_url`). |
| GitHub.UserWireKeyInjective | Sources/BasicUpdater/GitHub.swift:56-62 | No two user properties share a JSON key. |
| GitHub.AssetWireKeyInjective | Sources/BasicUpdater/GitHub.swift:86-95 | No two asset properties share a JSON key. |
| GitHub.EncodeEntriesWrites | Sources/BasicUpdater/GitHub.swift:34-45 | With distinct wire keys, an encoded object holds a listed property under its wire key exactly when the property has a value, and holds that value. |
| GitHub.EncodeEntriesListed | Sources/BasicUpdater/GitHub.swift:34-45 | Every key of an encoded object is the wire key of a listed property that has a value. |
| GitHub.EncodeRelease | Sources/BasicUpdater/GitHub.swift:10-46 | The encoded release object has exactly the wire keys of the properties with a value (a nil `discussionURL`, `createdAt` or `publishedAt` writes no key), and each key holds its property's JSON value. |
| GitHub.EncodeUser | Sources/BasicUpdater/GitHub.swift:48-63 | The encoded user object has exactly the wire keys of the properties with a value (a nil `name` or `email` writes no key), and each key holds its property's JSON value. |
| GitHub.EncodeAsset | Sources/BasicUpdater/GitHub.swift:66-96 | The encoded asset object has exactly the eleven wire keys, each holding its property's JSON value. |
| GitHub.DecodeReleaseHead | Sources/BasicUpdater/GitHub.swift:35 | The first seven reads of a release, `name` through `author`, yield what the object holds under those keys, the nested `assets` and `author` decoded. |
| GitHub.DecodeReleaseTail | Sources/BasicUpdater/GitHub.swift:36-44 | The remaining nine reads complete the release begun by the first seven without changing it, and yield what the object holds under their keys. |
| GitHub.DecodeRelease | Sources/BasicUpdater/GitHub.swift:10-46 | A decoded release is what the object holds: each scalar property sits under its wire key (a nil optional is an absent key or `null`), and `assets` and `author` are what the nested values there decode to. |
| GitHub.DecodeUser | Sources/BasicUpdater/GitHub.swift:48-63 | A decoded user is what the object holds: every property sits under its wire key, and a nil `name` or `email` is an absent key or `null`. |
| GitHub.DecodeAsset | Sources/BasicUpdater/GitHub.swift:66-96 | A decoded asset is what the object holds: every property sits under its wire key, the state as its raw string. |
| GitHub.DecodeList | Sources/BasicUpdater/GitHub.swift:31 | Decoding a JSON array as `[T]` succeeds exactly when every element decodes, and keeps their order; a failure carries the error of the first element that does not decode. |
| GitHub.DecodeReleases | Sources/BasicUpdater/BasicUpdater.swift:167 | Decoding `[GithubRelease]` succeeds exactly when the document is an array whose every element decodes as a release, and yields those releases in the same order; `null` is `valueNotFound`. |
| GitHubLemmas.ReleaseReadsAssetsThird | Sources/BasicUpdater/GitHub.swift:34-45 | An object holding only a good `name` and `draft` fails on `assets`, the third case, not on `prerelease`, which comes earlier among the properties. |
| GitHubLemmas.AssetReadsUrlFirst | Sources/BasicUpdater/GitHub.swift:86-95 | An object whose `url` is a number fails with a type mismatch on `url`, the first case, before the missing `browser_download_url` is noticed. |
| GitHubLemmas.UserRoundTrip | Sources/BasicUpdater/GitHub.swift:48-63 | Decoding the JSON object encoded from any user gives that user back. |
| GitHubLemmas.AssetRoundTrip | Sources/BasicUpdater/GitHub.swift:66-96 | Decoding the JSON object encoded from any asset gives that asset back. |
| GitHubLemmas.AssetListRoundTrip | Sources/BasicUpdater/GitHub.swift:31 | Decoding an encoded list of assets gives the list back. |
| GitHubLemmas.ReleaseRoundTrip | Sources/BasicUpdater/GitHub.swift:10-46 | Decoding the JSON object encoded from any release gives that release back. |
| GitHubLemmas.ReleasesRoundTrip | Sources/BasicUpdater/BasicUpdater.swift:165-167 | Decoding an encoded array of releases gives the list back. |
| GitHubLemmas.MissingRequiredReleaseKey | Sources/BasicUpdater/GitHub.swift:12-32 | Any object lacking the key of a non-optional release property fails to decode. |
| GitHubLemmas.MissingOptionalReleaseKey | Sources/BasicUpdater/GitHub.swift:24-26 | Removing the key of `discussionURL`, `createdAt` or `publishedAt` from an encoded release decodes to the same release with that property nil. |
| GitHubLemmas.MissingRequiredUserKey | Sources/BasicUpdater/GitHub.swift:50-54 | Any object lacking the key of `login`, `id`, `nodeId`, `gravatarId`, `avatarURL` or `htmlURL` fails to decode as a user. |
| GitHubLemmas.MissingOptionalUserKey | Sources/BasicUpdater/GitHub.swift:49 | Removing `name` or `email` from an encoded user decodes to the same user with that property nil. |
| GitHubLemmas.MissingAssetKey | Sources/BasicUpdater/GitHub.swift:67-77 | Every asset key is required: an object missing any of them, `created_at` and `updated_at` included, fails to decode. |
| Settings.BridgeBool | Sources/BasicUpdater/BasicUpdater.swift:19 | `as? Bool` accepts a stored bool as itself, and a stored integer or real number only when it is 0 or 1 (false and true), as NSNumber bridging does. It rejects strings and arrays. |
| Settings.AutoCheckForUpdates | Sources/BasicUpdater/BasicUpdater.swift:17-20 | The auto-check getter reads a stored bool, and a stored 0 or 1 (integer or real) as false or true. It reads `true` when the key is absent or its value does not convert to a bool. |
| Settings.SetAutoCheckForUpdates | Sources/BasicUpdater/BasicUpdater.swift:21-24 | After the setter, the getter returns the value set, and no other key of the store changes. |
| Settings.StringElements | Sources/BasicUpdater/BasicUpdater.swift:32 | A stored array reads as a string list exactly when every element is a string, and it reads element by element. |
| Settings.SkippedVersions | Sources/BasicUpdater/BasicUpdater.swift:30-33 | The skip-list getter reads the stored string list. It reads empty when the key is absent or does not hold a string list. |
| Settings.SetSkippedVersions | Sources/BasicUpdater/BasicUpdater.swift:34-37 | After the setter, the getter returns exactly the list set, in order and with its duplicates, and no other key changes. |
| Settings.SetAutoCheckKeepsSkipped | Sources/BasicUpdater/BasicUpdater.swift:21-24 | Writing the auto-check setting leaves the skip list as it was. |
| Settings.SetSkippedKeepsAutoCheck | Sources/BasicUpdater/BasicUpdater.swift:34-37 | Writing the skip list leaves the auto-check setting as it was. |
| Decimal.Describe | Sources/BasicUpdater/BasicUpdater.swift:96 | `"\(max)"` is a minus sign exactly for a negative value, followed by a non-empty run of decimal digits that starts with `0` only for zero. |
| Decimal.DescribeRoundTrip | Sources/BasicUpdater/BasicUpdater.swift:96 | Reading back the decimal rendering `"\(max)"` of any `Int` gives that `Int`. |
| ReleaseUrl.ReleaseURL | Sources/BasicUpdater/BasicUpdater.swift:91-98 | The releases URL keeps the scheme, user, password, port and fragment. It sets the host to `api.github.com` and the path to `/repos` + the project path + `/releases`. Its query is the single item `per_page` whose value is the canonical decimal rendering of `max` and reads back as `max`. |
| ReleaseUrl.ReleaseURLInjective | Sources/BasicUpdater/BasicUpdater.swift:91-98 | Two projects or page sizes that share a releases URL have the same path, scheme, port and page size. |
| BasicUpdater.SelectAsset | Sources/BasicUpdater/BasicUpdater.swift:54-56 | The default selector picks the first asset and needs a non-empty list. A custom selector's choice is used as given. |
| BasicUpdater.Init | Sources/BasicUpdater/BasicUpdater.swift:68-85 | A stored auto-check value is never overwritten. An absent one is seeded with `autoCheckByDefault`, and no other key changes, so the key is always present afterwards. A silent check of one release starts exactly when the resulting setting reads as on. The project URL, the predicate and the selector are kept as given. |
| BasicUpdater.InitWithDefaults | Sources/BasicUpdater/BasicUpdater.swift:68-85 | The initializer with every default. On a store without the auto-check key, only that key is written, checking is on and a silent check of one release starts. A stored setting is kept and decides the check. Any check started is the silent check of one release. The key is always present afterwards, the project URL and predicate are kept, and the selector is the first asset. |
| BasicUpdater.ShouldUpdateTo | Sources/BasicUpdater/BasicUpdater.swift:134-139 | A skipped tag is never offered, whatever the predicate says. An unskipped release is offered exactly when the application's predicate holds. |
| BasicUpdater.FirstQualifying | Sources/BasicUpdater/BasicUpdater.swift:112-120 | Finds the position of a release the user should update to before which none qualifies, or reports that none qualifies. |
| BasicUpdater.Decide | Sources/BasicUpdater/BasicUpdater.swift:111-123 | A release is offered exactly when some release qualifies, and it is the first one in list order. With none, the "up to date" alert appears exactly when `showIfLatest` holds, and otherwise nothing is shown. |
| BasicUpdater.CheckReleases | Sources/BasicUpdater/BasicUpdater.swift:111-123 | The walk with `foundUpdate` and `break` reaches exactly the decision above. An offered release is never skipped and always satisfies the predicate. |
| BasicUpdater.CheckForUpdates | Sources/BasicUpdater/BasicUpdater.swift:107-129 | A check only logs when the request fails or the answer does not decode. It logs the request's error message or the decoding error that was raised. Otherwise it shows the decision over the decoded releases. |
| BasicUpdater.CheckForUpdatesWithDefaults | Sources/BasicUpdater/BasicUpdater.swift:107-129 | `checkForUpdates()` asks for one release. It logs exactly a failed request or an undecodable answer, with the request's error or the decoding error that was raised. Otherwise it shows the decision over the decoded releases with `showIfLatest` on, so it never ends with no prompt at all and shows the "up to date" alert only when no decoded release qualifies. |
| BasicUpdater.ServedReleasesDecide | Sources/BasicUpdater/BasicUpdater.swift:162-169 | When the releases endpoint answers with the encoding of a list of releases, the check decides over exactly that list. |
| BasicUpdater.PrefixDecides | Sources/BasicUpdater/BasicUpdater.swift:112-119 | Once a prefix of the list holds a release to offer, nothing appended after it changes the decision. |
| BasicUpdater.MoreSkipsOfferNoEarlier | Sources/BasicUpdater/BasicUpdater.swift:134-139 | Under the same predicate, a skip list holding every tag of another still offers something only if the other does, and never at an earlier position. |
| UpdaterVC.ShowRelease | Sources/BasicUpdater/UpdaterVC.swift:54-56 | Showing a release records its tag and the download link of the asset the updater's selector picks: the first asset under the default selector. |
| UpdaterVC.DownloadButtonClicked | Sources/BasicUpdater/UpdaterVC.swift:59-66 | With no recorded link the button only raises an alert. Otherwise it opens exactly the recorded link. |
| UpdaterVC.SurpressVersionClicked | Sources/BasicUpdater/UpdaterVC.swift:82-87 | A recorded tag is appended to the end of the skip list and no other key changes. With no tag the updater is unchanged. |
| UpdaterVC.SuppressAppends | Sources/BasicUpdater/UpdaterVC.swift:83-85 | Suppressing keeps the earlier entries in order and adds one more occurrence of the tag, even when the tag is already skipped. |
| UpdaterVC.SuppressKeepsAutoCheck | Sources/BasicUpdater/UpdaterVC.swift:82-85 | Suppressing does not change the auto-check setting. |
| UpdaterVC.SuppressedNeverOffered | Sources/BasicUpdater/UpdaterVC.swift:82-85 | After a release is shown and suppressed, `shouldUpdateTo` is false for it under any predicate. |
| UpdaterVC.SuppressedTagNeverChecked | Sources/BasicUpdater/UpdaterVC.swift:82-85 | After a release is shown and suppressed, no check offers a release with that tag. |
| UpdaterVC.ShownPromptDownloads | Sources/BasicUpdater/UpdaterVC.swift:54-66 | A prompt that has shown a release always opens that release's selected asset link, never the no-URL alert. |
| UpdaterVC.AssetlessOfferTraps | Sources/BasicUpdater/UpdaterVC.swift:55 | Under the default selector, a wanted release with no assets is offered by the check, yet the selector has no asset to take for it. |
| UpdaterVC.FreshPromptSuppressesNothing | Sources/BasicUpdater/UpdaterVC.swift:16 | Suppressing on a prompt that has shown nothing writes nothing, because no tag is recorded yet. |

## Left out

- Asynchronous scheduling is not modelled. This covers `Task`, `await` and `MainActor.run` in `checkForUpdates`, because the check is sequential once the releases are in hand.
- `URLSession` fetching is not modelled. It is replaced by the `fetch` parameter.
- NSLog's formatting of the error message is not modelled. A logged error is the outcome `LoggedError`.
- `JSONDecoder` byte parsing is not modelled. Decoding starts from an already parsed JSON value.
- ISO-8601 date parsing and `URL(string:)` validation are not modelled. Dates and URLs keep their wire string.
- JSON numbers are modelled as integers only. `JSONDecoder` also accepts an integral floating-point number such as `5.0` for an `Int` and rejects `5.5` with `dataCorrupted`; neither can be written as a `Json.Value`.
- Strings and bools are taken as the JSON value holds them; only the 64-bit range of `Int` is checked, as the decoder does.
- `URLComponents` parsing and serialisation are not modelled. The URL is a record of its components. Turning that record back into a `URL` (the forced unwraps at BasicUpdater.swift:92 and 97) is not modelled.
- `userDefaultsSuite` picks the defaults suite. The choice is not modelled: the model's `Init` receives the selected store.
- The `UserDefaults` backend is replaced by a map. Property-list value kinds other than bool, number, string and array are not modelled.
- UI work is not modelled:
  - `NSAlert`, `NSWindow`, the modal loop and `NSWorkspace.open`;
  - the headline texts of `showRelease`;
  - `dismissButtonClicked`;
  - `objectWillChange`.
  What these produce is reduced to the outcomes `ShowUpdater`, `ShowLatestAlert`, `NoDownloadURLAlert` and `OpenURL`.
- `Bundle.main` info-dictionary lookups (app name, version, build) are not modelled. They only feed alert texts.
- Tag comparison in `shouldUpdateTo` (`skippedVersions.contains`, BasicUpdater.swift:135) is modelled as exact character-sequence equality, not Unicode canonical equivalence.
- The trap of `assets.first!` on an empty asset list is not an `Outcome`: `ShowRelease` requires an asset to select, and `UpdaterVC.AssetlessOfferTraps` shows the case is reachable.
- `maxReleases` is used only in the request URL. It is not clamped, and how many releases the server returns is up to the `fetch` parameter.

=== FILE: basic_updater.dfy ===
/**
 The `Updater` object: its settings over the defaults store, the seeding
 done by its initializer, the skip-aware update predicate, and the check
 that walks the fetched releases in order and offers the first one the
 user should update to.
 */
module BasicUpdater {
  import opened Results
  import Json
  import opened GitHub
  import GitHubLemmas
  import opened Settings
  import opened ReleaseUrl

  /**
   `assetsClosure`: by default the first asset of the release (a forced
   unwrap, so the list must not be empty); an application may supply its
   own selector instead.
   */
  datatype AssetSelector = FirstAsset | Custom(choose: seq<Asset> -> Asset)

  /** The selector has an answer for `assets`: a custom one always does, the default one needs an asset. */
  predicate CanSelect(selector: AssetSelector, assets: seq<Asset>) {
    selector.Custom? || |assets| > 0
  }

  function SelectAsset(selector: AssetSelector, assets: seq<Asset>): (a: Asset)
    requires CanSelect(selector, assets)
    ensures selector.FirstAsset? ==> a in assets && a == assets[0]
    ensures selector.Custom? ==> a == selector.choose(assets)
  {
    match selector
    case FirstAsset => assets[0]
    case Custom(choose) => choose(assets)
  }

  /**
   An updater: the project's URL taken apart, the defaults suite it keeps
   its two settings in, the application's update predicate and its asset
   selector.
   */
  datatype Updater = Updater(
    projectURL: UrlComponents,
    store: Store,
    updateClosure: Release -> bool,
    assetsClosure: AssetSelector)

  /** A call of `checkForUpdates(showIfLatest:maxReleases:)`. */
  datatype CheckRequest = CheckRequest(showIfLatest: bool, maxReleases: int)

  /** What the initializer leaves behind: the updater, and the check it starts, if any. */
  datatype Launch = Launch(updater: Updater, initialCheck: Option<CheckRequest>)

  /** The default arguments: `autoCheckByDefault` of the initializer, and `showIfLatest` and `maxReleases` of the check. */
  const DefaultAutoCheck: bool := true
  const DefaultShowIfLatest: bool := true
  const DefaultMaxReleases: int := 1

  /**
   The initializer. It writes `autoCheckByDefault` only when the
   auto-check key is absent, so a stored value is never overwritten; it
   then starts a silent check of the latest release exactly when the
   resulting setting reads as on.
   */
  function Init(
    projectURL: UrlComponents,
    store: Store,
    autoCheckByDefault: bool,
    shouldUpdateTo: Release -> bool,
    assetToUse: Option<seq<Asset> -> Asset>): (l: Launch)
    ensures AutoCheckForUpdatesKey in store ==> l.updater.store == store
    ensures AutoCheckForUpdatesKey !in store ==>
      && AutoCheckForUpdates(l.updater.store) == autoCheckByDefault
      && SameExcept(store, l.updater.store, AutoCheckForUpdatesKey)
    ensures AutoCheckForUpdatesKey in l.updater.store
    ensures SkippedVersions(l.updater.store) == SkippedVersions(store)
    ensures l.initialCheck.Some? <==> AutoCheckForUpdates(l.updater.store)
    ensures l.initialCheck.Some? ==> l.initialCheck.value == CheckRequest(false, DefaultMaxReleases)
    ensures l.updater.projectURL == projectURL
    ensures forall r :: l.updater.updateClosure(r) == shouldUpdateTo(r)
    ensures assetToUse.None? <==> l.updater.assetsClosure.FirstAsset?
    ensures assetToUse.Some? ==> forall a :: l.updater.assetsClosure.choose(a) == assetToUse.value(a)
  {
    var selector := if assetToUse.Some? then Custom(assetToUse.value) else FirstAsset;
    var seeded := if AutoCheckForUpdatesKey in store then store else SetAutoCheckForUpdates(store, autoCheckByDefault);
    var u := Updater(projectURL, seeded, shouldUpdateTo, selector);
    Launch(u, if AutoCheckForUpdates(seeded) then Some(CheckRequest(false, DefaultMaxReleases)) else None)
  }

  /**
   `Updater(projectURL:shouldUpdateTo:)`, every defaulted argument left out:
   on a store that has never recorded the setting, automatic checking is on
   and a silent check of the latest release starts at once; the default
   selector takes the first asset.
   */
  function InitWithDefaults(projectURL: UrlComponents, store: Store, shouldUpdateTo: Release -> bool): (l: Launch)
    ensures AutoCheckForUpdatesKey !in store ==>
      && AutoCheckForUpdates(l.updater.store)
      && SameExcept(store, l.updater.store, AutoCheckForUpdatesKey)
      && l.initialCheck == Some(CheckRequest(false, 1))
    ensures AutoCheckForUpdatesKey in store ==>
      && l.updater.store == store
      && (l.initialCheck.Some? <==> AutoCheckForUpdates(store))
    ensures l.initialCheck.Some? ==> l.initialCheck.value == CheckRequest(false, 1)
    ensures AutoCheckForUpdatesKey in l.updater.store
    ensures SkippedVersions(l.updater.store) == SkippedVersions(store)
    ensures l.updater.projectURL == projectURL
    ensures forall r :: l.updater.updateClosure(r) == shouldUpdateTo(r)
    ensures l.updater.assetsClosure.FirstAsset?
  {
    Init(projectURL, store, DefaultAutoCheck, shouldUpdateTo, None)
  }

  /**
   `shouldUpdateTo(release:)`: a skipped tag is never offered, whatever the
   application's predicate says; otherwise the predicate decides.
   */
  function ShouldUpdateTo(u: Updater, release: Release): (b: bool)
    ensures release.tagName in SkippedVersions(u.store) ==> !b
    ensures release.tagName !in SkippedVersions(u.store) ==> b == u.updateClosure(release)
  {
    if release.tagName !in SkippedVersions(u.store) then u.updateClosure(release) else false
  }

  /** The position of the first release the user should update to, if any. */
  function FirstQualifying(u: Updater, releases: seq<Release>): (i: Option<nat>)
    ensures i.Some? ==> i.value < |releases| && ShouldUpdateTo(u, releases[i.value])
    ensures i.Some? ==> forall j :: 0 <= j < i.value ==> !ShouldUpdateTo(u, releases[j])
    ensures i.None? <==> forall j :: 0 <= j < |releases| ==> !ShouldUpdateTo(u, releases[j])
    decreases |releases|
  {
    if |releases| == 0 then None
    else if ShouldUpdateTo(u, releases[0]) then Some(0)
    else
      match FirstQualifying(u, releases[1..])
      case Some(k) => Some(k + 1)
      case None => None
  }

  /** Why a check ended in the log rather than on screen. */
  datatype CheckError = RequestFailed(message: string) | DecodingFailed(error: DecodeError)

  /** What a check shows the user, or logs. */
  datatype Outcome =
    | ShowUpdater(release: Release)
    | ShowLatestAlert
    | NoPrompt
    | LoggedError(error: CheckError)

  /**
   The decision over a fetched list: the first qualifying release is
   offered; with none, the "up to date" alert appears exactly when
   `showIfLatest` is set.
   */
  function Decide(u: Updater, releases: seq<Release>, showIfLatest: bool): (o: Outcome)
    ensures !o.LoggedError?
    ensures o.ShowUpdater? <==> exists i :: 0 <= i < |releases| && ShouldUpdateTo(u, releases[i])
    ensures o.ShowUpdater? ==>
      exists i :: 0 <= i < |releases| && releases[i] == o.release && ShouldUpdateTo(u, o.release) &&
        forall j :: 0 <= j < i ==> !ShouldUpdateTo(u, releases[j])
    ensures o.ShowLatestAlert? <==> showIfLatest && forall i :: 0 <= i < |releases| ==> !ShouldUpdateTo(u, releases[i])
    ensures o.NoPrompt? <==> !showIfLatest && forall i :: 0 <= i < |releases| ==> !ShouldUpdateTo(u, releases[i])
  {
    match FirstQualifying(u, releases)
    case Some(i) => ShowUpdater(releases[i])
    case None => if showIfLatest then ShowLatestAlert else NoPrompt
  }

  /**
   The body of the check once the releases are in hand: a walk in list
   order that stops at the first release the user should update to.
   */
  method CheckReleases(u: Updater, releases: seq<Release>, showIfLatest: bool) returns (o: Outcome)
    ensures o == Decide(u, releases, showIfLatest)
    ensures o.ShowUpdater? ==> o.release.tagName !in SkippedVersions(u.store) && u.updateClosure(o.release)
  {
    o := NoPrompt;
    var foundUpdate := false;
    var i := 0;
    while i < |releases|
      invariant 0 <= i <= |releases|
      invariant forall j :: 0 <= j < i ==> !ShouldUpdateTo(u, releases[j])
      invariant !foundUpdate && o == NoPrompt
    {
      if ShouldUpdateTo(u, releases[i]) {
        foundUpdate := true;
        o := ShowUpdater(releases[i]);
        break;
      }
      i := i + 1;
    }
    if showIfLatest && !foundUpdate {
      o := ShowLatestAlert;
    }
  }

  /**
   `checkForUpdates(showIfLatest:maxReleases:)` with the network as a
   parameter: `fetch` answers a request URL with a JSON document or an
   error. A failed request and an undecodable answer are both only
   logged; otherwise the decision over the decoded list is shown.
   */
  function CheckForUpdates(
    u: Updater,
    showIfLatest: bool,
    maxReleases: int,
    fetch: UrlComponents -> Result<Json.Value, string>): (o: Outcome)
    ensures var answer := fetch(ReleaseURL(u.projectURL, maxReleases));
      o.LoggedError? <==> answer.Failure? || DecodeReleases(answer.value).Failure?
    ensures var answer := fetch(ReleaseURL(u.projectURL, maxReleases));
      answer.Failure? ==> o == LoggedError(RequestFailed(answer.error))
    ensures var answer := fetch(ReleaseURL(u.projectURL, maxReleases));
      answer.Success? && DecodeReleases(answer.value).Failure? ==>
        o == LoggedError(DecodingFailed(DecodeReleases(answer.value).error))
    ensures var answer := fetch(ReleaseURL(u.projectURL, maxReleases));
      !o.LoggedError? ==> o == Decide(u, DecodeReleases(answer.value).value, showIfLatest)
  {
    match fetch(ReleaseURL(u.projectURL, maxReleases))
    case Failure(message) => LoggedError(RequestFailed(message))
    case Success(doc) =>
      match DecodeReleases(doc)
      case Failure(e) => LoggedError(DecodingFailed(e))
      case Success(releases) => Decide(u, releases, showIfLatest)
  }

  /**
   `checkForUpdates()` with both defaults: it asks for one release, and,
   once the answer decodes, the user sees either the updater or the "up to
   date" alert, never nothing.
   */
  function CheckForUpdatesWithDefaults(u: Updater, fetch: UrlComponents -> Result<Json.Value, string>): (o: Outcome)
    ensures var answer := fetch(ReleaseURL(u.projectURL, 1));
      o.LoggedError? <==> answer.Failure? || DecodeReleases(answer.value).Failure?
    ensures var answer := fetch(ReleaseURL(u.projectURL, 1));
      answer.Failure? ==> o == LoggedError(RequestFailed(answer.error))
    ensures var answer := fetch(ReleaseURL(u.projectURL, 1));
      answer.Success? && DecodeReleases(answer.value).Failure? ==>
        o == LoggedError(DecodingFailed(DecodeReleases(answer.value).error))
    ensures var answer := fetch(ReleaseURL(u.projectURL, 1));
      !o.LoggedError? ==> o == Decide(u, DecodeReleases(answer.value).value, true)
    ensures !o.NoPrompt?
    ensures var answer := fetch(ReleaseURL(u.projectURL, 1));
      o.ShowLatestAlert? ==> forall r :: r in DecodeReleases(answer.value).value ==> !ShouldUpdateTo(u, r)
  {
    CheckForUpdates(u, DefaultShowIfLatest, DefaultMaxReleases, fetch)
  }

  // ---------------------------------------------------------------------------
  // Properties of the check
  // ---------------------------------------------------------------------------

  /**
   When the server answers the releases endpoint with the encoding of a
   list of releases, the check decides over exactly that list.
   */
  lemma ServedReleasesDecide(
    u: Updater,
    showIfLatest: bool,
    maxReleases: int,
    fetch: UrlComponents -> Result<Json.Value, string>,
    releases: seq<Release>)
    requires fetch(ReleaseURL(u.projectURL, maxReleases)) == Success(EncodeReleases(releases))
    ensures CheckForUpdates(u, showIfLatest, maxReleases, fetch) == Decide(u, releases, showIfLatest)
  {
    GitHubLemmas.ReleasesRoundTrip(releases);
  }

  /**
   Releases after the first qualifying one play no part: once a prefix of
   the list holds a release to offer, anything appended leaves the
   decision as it was.
   */
  lemma PrefixDecides(u: Updater, front: seq<Release>, back: seq<Release>, showIfLatest: bool)
    requires Decide(u, front, showIfLatest).ShowUpdater?
    ensures Decide(u, front + back, showIfLatest) == Decide(u, front, showIfLatest)
  {
    var all := front + back;
    var i := FirstQualifying(u, front).value;
    assert all[i] == front[i];
    assert forall j :: 0 <= j < i ==> all[j] == front[j];
    var k := FirstQualifying(u, all);
    assert k.Some? && k.value <= i;
    assert all[k.value] == front[k.value];
  }

  /**
   Skipping more tags never brings a different release forward: with the
   same predicate, if a larger skip list still offers something, a
   release the smaller list would have offered sits no later in the list.
   */
  lemma MoreSkipsOfferNoEarlier(u: Updater, v: Updater, releases: seq<Release>)
    requires forall r :: u.updateClosure(r) == v.updateClosure(r)
    requires forall t :: t in SkippedVersions(u.store) ==> t in SkippedVersions(v.store)
    requires FirstQualifying(v, releases).Some?
    ensures FirstQualifying(u, releases).Some?
    ensures FirstQualifying(u, releases).value <= FirstQualifying(v, releases).value
  {
  }
}

=== FILE: decimal.dfy ===
/**
 The decimal rendering Swift's string interpolation gives an `Int`
 (`"\(max)"`), and the reading of such a string back into a number that a
 consumer of the query performs.
 */
module Decimal {
  import opened Results

  predicate IsDigit(c: char) {
    '0' <= c <= '9'
  }

  predicate AllDigits(s: string) {
    forall i :: 0 <= i < |s| ==> IsDigit(s[i])
  }

  function DigitChar(d: nat): (c: char)
    requires d < 10
    ensures IsDigit(c)
  {
    (48 + d) as char
  }

  function DigitValue(c: char): (d: nat)
    requires IsDigit(c)
    ensures d < 10
  {
    c as int - 48
  }

  /** The digits of `n`, most significant first, with no leading zero. */
  function NatDigits(n: nat): (s: string)
    ensures |s| > 0 && AllDigits(s)
    ensures s[0] == '0' ==> |s| == 1
    ensures s[0] == '0' <==> n == 0
    decreases n
  {
    if n < 10 then [DigitChar(n)] else NatDigits(n / 10) + [DigitChar(n % 10)]
  }

  /**
   `"\(i)"`: a minus sign before the digits of a negative value; the digits
   never start with a zero unless the value is zero.
   */
  function Describe(i: int): (s: string)
    ensures |s| > 0
    ensures s[0] == '-' <==> i < 0
    ensures var digits := if i < 0 then s[1..] else s;
      && |digits| > 0 && AllDigits(digits)
      && (digits[0] == '0' <==> i == 0)
  {
    if i < 0 then "-" + NatDigits(-i) else NatDigits(i)
  }

  /** The value of a string of digits. */
  function DigitsValue(s: string): nat
    requires AllDigits(s)
    decreases |s|
  {
    if |s| == 0 then 0 else DigitsValue(s[..|s| - 1]) * 10 + DigitValue(s[|s| - 1])
  }

  /** Reads an optional minus sign followed by one or more digits. */
  function ParseDecimal(s: string): Option<int> {
    if |s| > 0 && s[0] == '-' then
      if |s| > 1 && AllDigits(s[1..]) then Some(-(DigitsValue(s[1..]) as int)) else None
    else if |s| > 0 && AllDigits(s) then Some(DigitsValue(s))
    else None
  }

  lemma DigitRoundTrip(d: nat)
    requires d < 10
    ensures DigitValue(DigitChar(d)) == d
  {
  }

  lemma {:induction false} NatDigitsRoundTrip(n: nat)
    ensures DigitsValue(NatDigits(n)) == n
    decreases n
  {
    var s := NatDigits(n);
    if n < 10 {
      DigitRoundTrip(n);
      assert s[..|s| - 1] == [];
    } else {
      NatDigitsRoundTrip(n / 10);
      DigitRoundTrip(n % 10);
      assert s[..|s| - 1] == NatDigits(n / 10);
    }
  }

  /** Reading back the rendering of any `Int` gives that `Int`. */
  lemma DescribeRoundTrip(i: int)
    ensures ParseDecimal(Describe(i)) == Some(i)
  {
    var s := Describe(i);
    if i < 0 {
      assert s == "-" + NatDigits(-i);
      assert s[1..] == NatDigits(-i);
      NatDigitsRoundTrip(-i);
    } else {
      assert s == NatDigits(i);
      NatDigitsRoundTrip(i);
    }
  }
}

=== FILE: github.dfy ===
/**
 The GitHub release records (`GithubRelease`, `GithubUser`, `GithubAsset`),
 their coding-key tables, and the synthesized `Codable` conformance of each:
 decoding reads one key per coding-key case, in the order the cases are
 declared, from a JSON object, so the first fault in that order is the
 error reported; a
 required field uses `decode(_:forKey:)` and an optional one
 `decodeIfPresent(_:forKey:)`; encoding omits an optional field that is nil.
 */
module GitHub {
  import opened Results
  import Json

  /** Swift's `Int` on a 64-bit platform. */
  type Int = i: int | InIntRange(i)

  predicate InIntRange(i: int) {
    -0x8000_0000_0000_0000 <= i <= 0x7FFF_FFFF_FFFF_FFFF
  }

  /** A URL, kept as the string it is written as on the wire. */
  datatype Url = Url(text: string)

  /** A timestamp, kept as the string it is written as on the wire. */
  datatype Date = Date(text: string)

  // ---------------------------------------------------------------------------
  // Records
  // ---------------------------------------------------------------------------

  /** State of a release asset. */
  datatype AssetState = Uploaded | Open

  datatype User = User(
    name: Option<string>,
    email: Option<string>,
    login: string,
    id: Int,
    nodeId: string,
    gravatarId: string,
    avatarURL: Url,
    htmlURL: Url)

  datatype Asset = Asset(
    browserDownloadURL: Url,
    url: Url,
    id: Int,
    nodeId: string,
    name: string,
    contentType: string,
    size: Int,
    downloadCount: Int,
    createdAt: Date,
    updatedAt: Date,
    state: AssetState)

  datatype Release = Release(
    name: string,
    draft: bool,
    prerelease: bool,
    tagName: string,
    body: string,
    targetCommitish: string,
    discussionURL: Option<Url>,
    createdAt: Option<Date>,
    publishedAt: Option<Date>,
    uploadURL: string,
    assetsURL: Url,
    htmlURL: Url,
    id: Int,
    nodeId: string,
    assets: seq<Asset>,
    author: User)

  // ---------------------------------------------------------------------------
  // Raw values and coding keys
  // ---------------------------------------------------------------------------

  function AssetStateRaw(s: AssetState): string {
    match s
    case Uploaded => "uploaded"
    case Open => "open"
  }

  /** `AssetState(rawValue:)`: exactly the two raw strings are accepted. */
  function AssetStateOf(raw: string): (s: Option<AssetState>)
    ensures s.Some? <==> raw == "uploaded" || raw == "open"
    ensures s.Some? ==> AssetStateRaw(s.value) == raw
    ensures forall t :: AssetStateRaw(t) == raw ==> s == Some(t)
  {
    if raw == "uploaded" then Some(Uploaded)
    else if raw == "open" then Some(Open)
    else None
  }

  /** A JSON key in the API's style: lower-case words joined by underscores. */
  predicate SnakeCase(w: string) {
    && |w| > 0 && w[0] != '_' && w[|w| - 1] != '_'
    && forall i :: 0 <= i < |w| ==> 'a' <= w[i] <= 'z' || w[i] == '_'
  }

  /** The cases of `GithubRelease.CodingKeys`, one per stored property. */
  datatype ReleaseKey =
    | Name | Draft | Prerelease | TagName | Body | TargetCommitish
    | DiscussionURL | CreatedAt | PublishedAt | UploadURL | AssetsURL
    | HtmlURL | Id | NodeId | Assets | Author

  function ReleaseWireKey(k: ReleaseKey): string
  {
    match k
    case Name => "name"
    case Draft => "draft"
    case Prerelease => "prerelease"
    case TagName => "tag_name"
    case Body => "body"
    case TargetCommitish => "target_commitish"
    case DiscussionURL => "discussions_url"
    case CreatedAt => "created_at"
    case PublishedAt => "published_at"
    case UploadURL => "upload_url"
    case AssetsURL => "assets_url"
    case HtmlURL => "html_url"
    case Id => "id"
    case NodeId => "node_id"
    case Assets => "assets"
    case Author => "author"
  }

  /** Every release JSON key is in the API's snake_case style. */
  lemma ReleaseWireKeySnakeCase(k: ReleaseKey)
    ensures SnakeCase(ReleaseWireKey(k))
  {
  }

  /**
   `CodingKeys(stringValue:)`: the wire key names exactly one case, so the
   table is injective and this is its inverse.
   */
  function ReleaseKeyOf(w: string): (k: Option<ReleaseKey>)
    ensures k.Some? ==> ReleaseWireKey(k.value) == w
  {
    if w == "name" then Some(ReleaseKey.Name)
    else if w == "draft" then Some(ReleaseKey.Draft)
    else if w == "prerelease" then Some(ReleaseKey.Prerelease)
    else if w == "tag_name" then Some(ReleaseKey.TagName)
    else if w == "body" then Some(ReleaseKey.Body)
    else if w == "target_commitish" then Some(ReleaseKey.TargetCommitish)
    else if w == "discussions_url" then Some(ReleaseKey.DiscussionURL)
    else if w == "created_at" then Some(ReleaseKey.CreatedAt)
    else if w == "published_at" then Some(ReleaseKey.PublishedAt)
    else if w == "upload_url" then Some(ReleaseKey.UploadURL)
    else if w == "assets_url" then Some(ReleaseKey.AssetsURL)
    else if w == "html_url" then Some(ReleaseKey.HtmlURL)
    else if w == "id" then Some(ReleaseKey.Id)
    else if w == "node_id" then Some(ReleaseKey.NodeId)
    else if w == "assets" then Some(ReleaseKey.Assets)
    else if w == "author" then Some(ReleaseKey.Author)
    else None
  }

  /** Reading a wire key back finds the case it was written for. */
  lemma ReleaseKeyOfWireKey(k: ReleaseKey)
    ensures ReleaseKeyOf(ReleaseWireKey(k)) == Some(k)
  {
  }

  /** The release properties declared with an optional type. */
  predicate IsOptionalReleaseKey(k: ReleaseKey) {
    k.DiscussionURL? || k.CreatedAt? || k.PublishedAt?
  }

  /** The cases of `GithubUser.CodingKeys`. */
  datatype UserKey =
    | Name | Email | Login | Id | NodeId | GravatarId | AvatarURL | HtmlURL

  function UserWireKey(k: UserKey): string
  {
    match k
    case Name => "name"
    case Email => "email"
    case Login => "login"
    case Id => "id"
    case NodeId => "node_id"
    case GravatarId => "gravatar_id"
    case AvatarURL => "avatar_url"
    case HtmlURL => "html_url"
  }

  /** Every user JSON key is in the API's snake_case style. */
  lemma UserWireKeySnakeCase(k: UserKey)
    ensures SnakeCase(UserWireKey(k))
  {
  }

  function UserKeyOf(w: string): (k: Option<UserKey>)
    ensures k.Some? ==> UserWireKey(k.value) == w
  {
    if w == "name" then Some(UserKey.Name)
    else if w == "email" then Some(UserKey.Email)
    else if w == "login" then Some(UserKey.Login)
    else if w == "id" then Some(UserKey.Id)
    else if w == "node_id" then Some(UserKey.NodeId)
    else if w == "gravatar_id" then Some(UserKey.GravatarId)
    else if w == "avatar_url" then Some(UserKey.AvatarURL)
    else if w == "html_url" then Some(UserKey.HtmlURL)
    else None
  }

  /** Reading a wire key back finds the case it was written for. */
  lemma UserKeyOfWireKey(k: UserKey)
    ensures UserKeyOf(UserWireKey(k)) == Some(k)
  {
  }

  predicate IsOptionalUserKey(k: UserKey) {
    k.Name? || k.Email?
  }

  /** The cases of `GithubAsset.CodingKeys`. */
  datatype AssetKey =
    | BrowserDownloadURL | Url | Id | NodeId | Name | ContentType
    | Size | DownloadCount | CreatedAt | UpdatedAt | State

  function AssetWireKey(k: AssetKey): string
  {
    match k
    case BrowserDownloadURL => "browser_download_url"
    case Url => "url"
    case Id => "id"
    case NodeId => "node_id"
    case Name => "name"
    case ContentType => "content_type"
    case Size => "size"
    case DownloadCount => "download_count"
    case CreatedAt => "created_at"
    case UpdatedAt => "updated_at"
    case State => "state"
  }

  /** Every asset JSON key is in the API's snake_case style. */
  lemma AssetWireKeySnakeCase(k: AssetKey)
    ensures SnakeCase(AssetWireKey(k))
  {
  }

  function AssetKeyOf(w: string): (k: Option<AssetKey>)
    ensures k.Some? ==> AssetWireKey(k.value) == w
  {
    if w == "browser_download_url" then Some(AssetKey.BrowserDownloadURL)
    else if w == "url" then Some(AssetKey.Url)
    else if w == "id" then Some(AssetKey.Id)
    else if w == "node_id" then Some(AssetKey.NodeId)
    else if w == "name" then Some(AssetKey.Name)
    else if w == "content_type" then Some(AssetKey.ContentType)
    else if w == "size" then Some(AssetKey.Size)
    else if w == "download_count" then Some(AssetKey.DownloadCount)
    else if w == "created_at" then Some(AssetKey.CreatedAt)
    else if w == "updated_at" then Some(AssetKey.UpdatedAt)
    else if w == "state" then Some(AssetKey.State)
    else None
  }

  /** Reading a wire key back finds the case it was written for. */
  lemma AssetKeyOfWireKey(k: AssetKey)
    ensures AssetKeyOf(AssetWireKey(k)) == Some(k)
  {
  }

  // ---------------------------------------------------------------------------
  // Decoding
  // ---------------------------------------------------------------------------

  /**
   The `DecodingError` cases, each with the coding key it arose at (the
   empty key for the top-level array).
   */
  datatype DecodeError =
    | KeyNotFound(key: string)
    | ValueNotFound(key: string)
    | TypeMismatch(key: string)
    | DataCorrupted(key: string)

  type Fields = map<string, Json.Value>

  /** Converts one JSON value found under `key` to a Swift value. */
  type Converter<T> = (string, Json.Value) -> Result<T, DecodeError>

  /** What decoding needs to find under `key` for the entry `v`. */
  predicate HoldsEntry(o: Fields, key: string, v: Option<Json.Value>) {
    match v
    case None => key !in o || o[key].Null?
    case Some(x) => key in o && o[key] == x
  }

  /** `decode(_:forKey:)`: an absent key is `keyNotFound`. */
  function Required<T>(o: Fields, key: string, conv: Converter<T>): (r: Result<T, DecodeError>)
    ensures key !in o ==> r == Failure(KeyNotFound(key))
    ensures key in o ==> r == conv(key, o[key])
  {
    if key !in o then Failure(KeyNotFound(key)) else conv(key, o[key])
  }

  /** `decodeIfPresent(_:forKey:)`: an absent key or `null` is nil. */
  function IfPresent<T>(o: Fields, key: string, conv: Converter<T>): (r: Result<Option<T>, DecodeError>)
    ensures key !in o || o[key].Null? ==> r == Success(None)
    ensures key in o && !o[key].Null? && conv(key, o[key]).Success? ==> r == Success(Some(conv(key, o[key]).value))
    ensures key in o && !o[key].Null? && conv(key, o[key]).Failure? ==> r == Failure(conv(key, o[key]).error)
  {
    if key !in o || o[key].Null? then Success(None)
    else
      match conv(key, o[key])
      case Success(v) => Success(Some(v))
      case Failure(e) => Failure(e)
  }

  function AsString(key: string, v: Json.Value): (r: Result<string, DecodeError>)
    ensures r.Success? <==> v.Str?
    ensures r.Success? ==> v == Json.Str(r.value)
  {
    match v
    case Str(s) => Success(s)
    case Null => Failure(ValueNotFound(key))
    case _ => Failure(TypeMismatch(key))
  }

  function AsBool(key: string, v: Json.Value): (r: Result<bool, DecodeError>)
    ensures r.Success? <==> v.Bool?
    ensures r.Success? ==> v == Json.Bool(r.value)
  {
    match v
    case Bool(b) => Success(b)
    case Null => Failure(ValueNotFound(key))
    case _ => Failure(TypeMismatch(key))
  }

  /** A JSON number that does not fit in `Int` is `dataCorrupted`. */
  function AsInt(key: string, v: Json.Value): (r: Result<Int, DecodeError>)
    ensures r.Success? <==> v.Number? && InIntRange(v.n)
    ensures r.Success? ==> v == Json.Number(r.value)
    ensures v.Number? && !InIntRange(v.n) ==> r == Failure(DataCorrupted(key))
  {
    match v
    case Number(n) => if InIntRange(n) then Success(n) else Failure(DataCorrupted(key))
    case Null => Failure(ValueNotFound(key))
    case _ => Failure(TypeMismatch(key))
  }

  function AsUrl(key: string, v: Json.Value): (r: Result<Url, DecodeError>)
    ensures r.Success? <==> v.Str?
    ensures r.Success? ==> v == Json.Str(r.value.text)
  {
    match v
    case Str(s) => Success(Url.Url(s))
    case Null => Failure(ValueNotFound(key))
    case _ => Failure(TypeMismatch(key))
  }

  function AsDate(key: string, v: Json.Value): (r: Result<Date, DecodeError>)
    ensures r.Success? <==> v.Str?
    ensures r.Success? ==> v == Json.Str(r.value.text)
  {
    match v
    case Str(s) => Success(Date(s))
    case Null => Failure(ValueNotFound(key))
    case _ => Failure(TypeMismatch(key))
  }

  /** A string that is not a raw value of `AssetState` is `dataCorrupted`. */
  function AsState(key: string, v: Json.Value): (r: Result<AssetState, DecodeError>)
    ensures r.Success? <==> v == Json.Str("uploaded") || v == Json.Str("open")
    ensures r.Success? ==> v == Json.Str(AssetStateRaw(r.value))
  {
    match v
    case Str(s) =>
      (match AssetStateOf(s)
       case Some(st) => Success(st)
       case None => Failure(DataCorrupted(key)))
    case Null => Failure(ValueNotFound(key))
    case _ => Failure(TypeMismatch(key))
  }

  /**
   The synthesized `GithubUser.init(from:)`. A decoded user is exactly what
   the object holds: every property sits under its wire key, and a nil
   optional is an absent key or `null`.
   */
  function DecodeUser(o: Fields): (r: Result<User, DecodeError>)
    ensures r.Success? ==> forall k :: HoldsEntry(o, UserWireKey(k), UserEntry(r.value, k))
  {
    var name :- IfPresent(o, UserWireKey(UserKey.Name), AsString);
    var email :- IfPresent(o, UserWireKey(UserKey.Email), AsString);
    var login :- Required(o, UserWireKey(UserKey.Login), AsString);
    var id :- Required(o, UserWireKey(UserKey.Id), AsInt);
    var nodeId :- Required(o, UserWireKey(UserKey.NodeId), AsString);
    var gravatarId :- Required(o, UserWireKey(UserKey.GravatarId), AsString);
    var avatarURL :- Required(o, UserWireKey(UserKey.AvatarURL), AsUrl);
    var htmlURL :- Required(o, UserWireKey(UserKey.HtmlURL), AsUrl);
    Success(User(name, email, login, id, nodeId, gravatarId, avatarURL, htmlURL))
  }

  function AsUser(key: string, v: Json.Value): Result<User, DecodeError> {
    match v
    case Object(o) => DecodeUser(o)
    case Null => Failure(ValueNotFound(key))
    case _ => Failure(TypeMismatch(key))
  }

  /** Every property of `a` is what `o` holds under its wire key. */
  predicate AssetFieldsHeld(o: Fields, a: Asset) {
    && HoldsEntry(o, AssetWireKey(AssetKey.BrowserDownloadURL), Some(Json.Str(a.browserDownloadURL.text)))
    && HoldsEntry(o, AssetWireKey(AssetKey.Url), Some(Json.Str(a.url.text)))
    && HoldsEntry(o, AssetWireKey(AssetKey.Id), Some(Json.Number(a.id)))
    && HoldsEntry(o, AssetWireKey(AssetKey.NodeId), Some(Json.Str(a.nodeId)))
    && HoldsEntry(o, AssetWireKey(AssetKey.Name), Some(Json.Str(a.name)))
    && HoldsEntry(o, AssetWireKey(AssetKey.ContentType), Some(Json.Str(a.contentType)))
    && HoldsEntry(o, AssetWireKey(AssetKey.Size), Some(Json.Number(a.size)))
    && HoldsEntry(o, AssetWireKey(AssetKey.DownloadCount), Some(Json.Number(a.downloadCount)))
    && HoldsEntry(o, AssetWireKey(AssetKey.CreatedAt), Some(Json.Str(a.createdAt.text)))
    && HoldsEntry(o, AssetWireKey(AssetKey.UpdatedAt), Some(Json.Str(a.updatedAt.text)))
    && HoldsEntry(o, AssetWireKey(AssetKey.State), Some(Json.Str(AssetStateRaw(a.state))))
  }

  /**
   The synthesized `GithubAsset.init(from:)`: it reads one key per
   `CodingKeys` case, in case order, and every key is required. Every
   property of a decoded asset is what the object holds under its wire key.
   */
  function DecodeAsset(o: Fields): (r: Result<Asset, DecodeError>)
    ensures r.Success? ==> AssetFieldsHeld(o, r.value)
  {
    var url :- Required(o, AssetWireKey(AssetKey.Url), AsUrl);
    var id :- Required(o, AssetWireKey(AssetKey.Id), AsInt);
    var name :- Required(o, AssetWireKey(AssetKey.Name), AsString);
    var size :- Required(o, AssetWireKey(AssetKey.Size), AsInt);
    var state :- Required(o, AssetWireKey(AssetKey.State), AsState);
    var downloadCount :- Required(o, AssetWireKey(AssetKey.DownloadCount), AsInt);
    var contentType :- Required(o, AssetWireKey(AssetKey.ContentType), AsString);
    var nodeId :- Required(o, AssetWireKey(AssetKey.NodeId), AsString);
    var browserDownloadURL :- Required(o, AssetWireKey(AssetKey.BrowserDownloadURL), AsUrl);
    var createdAt :- Required(o, AssetWireKey(AssetKey.CreatedAt), AsDate);
    var updatedAt :- Required(o, AssetWireKey(AssetKey.UpdatedAt), AsDate);
    Success(Asset(browserDownloadURL, url, id, nodeId, name, contentType, size,
                  downloadCount, createdAt, updatedAt, state))
  }

  function AsAsset(key: string, v: Json.Value): Result<Asset, DecodeError> {
    match v
    case Object(o) => DecodeAsset(o)
    case Null => Failure(ValueNotFound(key))
    case _ => Failure(TypeMismatch(key))
  }

  /**
   Decodes the elements of a JSON array as `[T]`, in order, stopping at the
   first element that does not decode; that element's error is the result.
   */
  function DecodeList<T>(key: string, items: seq<Json.Value>, conv: Converter<T>): (r: Result<seq<T>, DecodeError>)
    ensures r.Success? <==> forall i :: 0 <= i < |items| ==> conv(key, items[i]).Success?
    ensures r.Success? ==> |r.value| == |items|
    ensures r.Success? ==> forall i :: 0 <= i < |items| ==> conv(key, items[i]) == Success(r.value[i])
    ensures r.Failure? ==>
      exists i :: 0 <= i < |items| && conv(key, items[i]) == Failure(r.error) &&
                 forall j :: 0 <= j < i ==> conv(key, items[j]).Success?
    decreases |items|
  {
    if |items| == 0 then Success([])
    else
      var first :- conv(key, items[0]);
      var rest :- DecodeList(key, items[1..], conv);
      Success([first] + rest)
  }

  function AsAssets(key: string, v: Json.Value): Result<seq<Asset>, DecodeError> {
    match v
    case Array(items) => DecodeList(key, items, AsAsset)
    case Null => Failure(ValueNotFound(key))
    case _ => Failure(TypeMismatch(key))
  }

  /**
   Every scalar property of `r` is what `o` holds under its wire key; a nil
   optional is an absent key or `null`.
   */
  predicate ReleaseScalarsHeld(o: Fields, r: Release) {
    && HoldsEntry(o, ReleaseWireKey(ReleaseKey.Name), Some(Json.Str(r.name)))
    && HoldsEntry(o, ReleaseWireKey(ReleaseKey.Draft), Some(Json.Bool(r.draft)))
    && HoldsEntry(o, ReleaseWireKey(ReleaseKey.Prerelease), Some(Json.Bool(r.prerelease)))
    && HoldsEntry(o, ReleaseWireKey(ReleaseKey.TagName), Some(Json.Str(r.tagName)))
    && HoldsEntry(o, ReleaseWireKey(ReleaseKey.Body), Some(Json.Str(r.body)))
    && HoldsEntry(o, ReleaseWireKey(ReleaseKey.TargetCommitish), Some(Json.Str(r.targetCommitish)))
    && HoldsEntry(o, ReleaseWireKey(ReleaseKey.DiscussionURL), OptUrl(r.discussionURL))
    && HoldsEntry(o, ReleaseWireKey(ReleaseKey.CreatedAt), OptDate(r.createdAt))
    && HoldsEntry(o, ReleaseWireKey(ReleaseKey.PublishedAt), OptDate(r.publishedAt))
    && HoldsEntry(o, ReleaseWireKey(ReleaseKey.UploadURL), Some(Json.Str(r.uploadURL)))
    && HoldsEntry(o, ReleaseWireKey(ReleaseKey.AssetsURL), Some(Json.Str(r.assetsURL.text)))
    && HoldsEntry(o, ReleaseWireKey(ReleaseKey.HtmlURL), Some(Json.Str(r.htmlURL.text)))
    && HoldsEntry(o, ReleaseWireKey(ReleaseKey.Id), Some(Json.Number(r.id)))
    && HoldsEntry(o, ReleaseWireKey(ReleaseKey.NodeId), Some(Json.Str(r.nodeId)))
  }

  /** The properties `GithubRelease.init(from:)` reads from its first seven `CodingKeys` cases. */
  datatype ReleaseHead = ReleaseHead(
    name: string,
    draft: bool,
    assets: seq<Asset>,
    id: Int,
    body: string,
    prerelease: bool,
    author: User)

  function HeadOf(r: Release): ReleaseHead {
    ReleaseHead(r.name, r.draft, r.assets, r.id, r.body, r.prerelease, r.author)
  }

  /** The first seven reads: `name`, `draft`, `assets`, `id`, `body`, `prerelease`, `author`. */
  function DecodeReleaseHead(o: Fields): (r: Result<ReleaseHead, DecodeError>)
    ensures r.Success? ==> HoldsEntry(o, ReleaseWireKey(ReleaseKey.Name), Some(Json.Str(r.value.name)))
    ensures r.Success? ==> HoldsEntry(o, ReleaseWireKey(ReleaseKey.Draft), Some(Json.Bool(r.value.draft)))
    ensures r.Success? ==> Required(o, ReleaseWireKey(ReleaseKey.Assets), AsAssets) == Success(r.value.assets)
    ensures r.Success? ==> HoldsEntry(o, ReleaseWireKey(ReleaseKey.Id), Some(Json.Number(r.value.id)))
    ensures r.Success? ==> HoldsEntry(o, ReleaseWireKey(ReleaseKey.Body), Some(Json.Str(r.value.body)))
    ensures r.Success? ==> HoldsEntry(o, ReleaseWireKey(ReleaseKey.Prerelease), Some(Json.Bool(r.value.prerelease)))
    ensures r.Success? ==> Required(o, ReleaseWireKey(ReleaseKey.Author), AsUser) == Success(r.value.author)
  {
    var name :- Required(o, ReleaseWireKey(ReleaseKey.Name), AsString);
    var draft :- Required(o, ReleaseWireKey(ReleaseKey.Draft), AsBool);
    var assets :- Required(o, ReleaseWireKey(ReleaseKey.Assets), AsAssets);
    var id :- Required(o, ReleaseWireKey(ReleaseKey.Id), AsInt);
    var body :- Required(o, ReleaseWireKey(ReleaseKey.Body), AsString);
    var prerelease :- Required(o, ReleaseWireKey(ReleaseKey.Prerelease), AsBool);
    var author :- Required(o, ReleaseWireKey(ReleaseKey.Author), AsUser);
    Success(ReleaseHead(name, draft, assets, id, body, prerelease, author))
  }

  /** The remaining nine reads, completing the release begun by `h`. */
  function DecodeReleaseTail(o: Fields, h: ReleaseHead): (r: Result<Release, DecodeError>)
    ensures r.Success? ==> HeadOf(r.value) == h
    ensures r.Success? ==> HoldsEntry(o, ReleaseWireKey(ReleaseKey.TagName), Some(Json.Str(r.value.tagName)))
    ensures r.Success? ==> HoldsEntry(o, ReleaseWireKey(ReleaseKey.AssetsURL), Some(Json.Str(r.value.assetsURL.text)))
    ensures r.Success? ==> HoldsEntry(o, ReleaseWireKey(ReleaseKey.UploadURL), Some(Json.Str(r.value.uploadURL)))
    ensures r.Success? ==> HoldsEntry(o, ReleaseWireKey(ReleaseKey.HtmlURL), Some(Json.Str(r.value.htmlURL.text)))
    ensures r.Success? ==> HoldsEntry(o, ReleaseWireKey(ReleaseKey.NodeId), Some(Json.Str(r.value.nodeId)))
    ensures r.Success? ==> HoldsEntry(o, ReleaseWireKey(ReleaseKey.CreatedAt), OptDate(r.value.createdAt))
    ensures r.Success? ==> HoldsEntry(o, ReleaseWireKey(ReleaseKey.PublishedAt), OptDate(r.value.publishedAt))
    ensures r.Success? ==> HoldsEntry(o, ReleaseWireKey(ReleaseKey.TargetCommitish), Some(Json.Str(r.value.targetCommitish)))
    ensures r.Success? ==> HoldsEntry(o, ReleaseWireKey(ReleaseKey.DiscussionURL), OptUrl(r.value.discussionURL))
  {
    var tagName :- Required(o, ReleaseWireKey(ReleaseKey.TagName), AsString);
    var assetsURL :- Required(o, ReleaseWireKey(ReleaseKey.AssetsURL), AsUrl);
    var uploadURL :- Required(o, ReleaseWireKey(ReleaseKey.UploadURL), AsString);
    var htmlURL :- Required(o, ReleaseWireKey(ReleaseKey.HtmlURL), AsUrl);
    var nodeId :- Required(o, ReleaseWireKey(ReleaseKey.NodeId), AsString);
    var createdAt :- IfPresent(o, ReleaseWireKey(ReleaseKey.CreatedAt), AsDate);
    var publishedAt :- IfPresent(o, ReleaseWireKey(ReleaseKey.PublishedAt), AsDate);
    var targetCommitish :- Required(o, ReleaseWireKey(ReleaseKey.TargetCommitish), AsString);
    var discussionURL :- IfPresent(o, ReleaseWireKey(ReleaseKey.DiscussionURL), AsUrl);
    Success(Release(h.name, h.draft, h.prerelease, tagName, h.body, targetCommitish,
                    discussionURL, createdAt, publishedAt, uploadURL, assetsURL,
                    htmlURL, h.id, nodeId, h.assets, h.author))
  }

  /**
   The synthesized `GithubRelease.init(from:)`: it reads one key per
   `CodingKeys` case, in case order, so `assets` is read third. Every
   scalar property of a decoded release is what the object holds under its
   wire key; the assets and the author are what the nested values there
   decode to.
   */
  function DecodeRelease(o: Fields): (r: Result<Release, DecodeError>)
    ensures r.Success? ==> ReleaseScalarsHeld(o, r.value)
    ensures r.Success? ==> Required(o, ReleaseWireKey(ReleaseKey.Assets), AsAssets) == Success(r.value.assets)
    ensures r.Success? ==> Required(o, ReleaseWireKey(ReleaseKey.Author), AsUser) == Success(r.value.author)
  {
    var h :- DecodeReleaseHead(o);
    DecodeReleaseTail(o, h)
  }

  function AsRelease(key: string, v: Json.Value): Result<Release, DecodeError> {
    match v
    case Object(o) => DecodeRelease(o)
    case Null => Failure(ValueNotFound(key))
    case _ => Failure(TypeMismatch(key))
  }

  /** `decoder.decode([GithubRelease].self, from:)` on an already parsed document. */
  function DecodeReleases(doc: Json.Value): (r: Result<seq<Release>, DecodeError>)
    ensures r.Success? <==> doc.Array? && forall i :: 0 <= i < |doc.items| ==> AsRelease("", doc.items[i]).Success?
    ensures r.Success? ==> |r.value| == |doc.items|
    ensures r.Success? ==> forall i :: 0 <= i < |doc.items| ==> AsRelease("", doc.items[i]) == Success(r.value[i])
    ensures doc.Null? ==> r == Failure(ValueNotFound(""))
  {
    match doc
    case Array(items) => DecodeList("", items, AsRelease)
    case Null => Failure(ValueNotFound(""))
    case _ => Failure(TypeMismatch(""))
  }

  // ---------------------------------------------------------------------------
  // Encoding
  // ---------------------------------------------------------------------------

  /** No two coding keys share a wire name; Swift rejects a `CodingKeys` enum with a repeated raw value. */
  ghost predicate Injective<K(!new)>(wire: K -> string) {
    forall a, b :: wire(a) == wire(b) ==> a == b
  }

  /**
   The object written by an encoder that walks `keys` and writes, under the
   wire key of each, its entry; a `None` entry (a nil optional, written with
   `encodeIfPresent`) writes no key at all.
   */
  function EncodeEntries<K>(keys: seq<K>, wire: K -> string, entry: K -> Option<Json.Value>): Fields
    decreases |keys|
  {
    if |keys| == 0 then map[]
    else
      var rest := EncodeEntries(keys[1..], wire, entry);
      match entry(keys[0])
      case Some(v) => rest[wire(keys[0]) := v]
      case None => rest
  }

  /** Every key the encoder writes is the wire key of a listed key with an entry. */
  lemma {:induction false} EncodeEntriesListed<K>(keys: seq<K>, wire: K -> string, entry: K -> Option<Json.Value>, w: string)
    requires w in EncodeEntries(keys, wire, entry)
    ensures exists i :: 0 <= i < |keys| && wire(keys[i]) == w && entry(keys[i]).Some?
    decreases |keys|
  {
    var rest := EncodeEntries(keys[1..], wire, entry);
    if w in rest {
      EncodeEntriesListed(keys[1..], wire, entry, w);
      var i :| 0 <= i < |keys| - 1 && wire(keys[1..][i]) == w && entry(keys[1..][i]).Some?;
      assert keys[i + 1] == keys[1..][i];
    } else {
      assert wire(keys[0]) == w && entry(keys[0]).Some?;
    }
  }

  /** With an injective table, a key absent from the list is never written. */
  lemma {:induction false} EncodeEntriesSkips<K(!new)>(keys: seq<K>, wire: K -> string, entry: K -> Option<Json.Value>, k: K)
    requires Injective(wire)
    requires k !in keys
    ensures wire(k) !in EncodeEntries(keys, wire, entry)
    decreases |keys|
  {
    if |keys| > 0 {
      EncodeEntriesSkips(keys[1..], wire, entry, k);
    }
  }

  /**
   With an injective table, a listed key is written exactly when its entry
   is present, and holds that entry.
   */
  lemma {:induction false} EncodeEntriesWrites<K(!new)>(keys: seq<K>, wire: K -> string, entry: K -> Option<Json.Value>, k: K)
    requires Injective(wire)
    requires k in keys
    ensures wire(k) in EncodeEntries(keys, wire, entry) <==> entry(k).Some?
    ensures entry(k).Some? ==> EncodeEntries(keys, wire, entry)[wire(k)] == entry(k).value
    decreases |keys|
  {
    if k in keys[1..] {
      EncodeEntriesWrites(keys[1..], wire, entry, k);
    } else {
      assert keys[0] == k;
      EncodeEntriesSkips(keys[1..], wire, entry, k);
    }
  }

  function OptString(s: Option<string>): Option<Json.Value> {
    match s
    case Some(x) => Some(Json.Str(x))
    case None => None
  }

  function OptUrl(u: Option<Url>): Option<Json.Value> {
    match u
    case Some(x) => Some(Json.Str(x.text))
    case None => None
  }

  function OptDate(d: Option<Date>): Option<Json.Value> {
    match d
    case Some(x) => Some(Json.Str(x.text))
    case None => None
  }

  /** The cases of `GithubUser.CodingKeys` in declaration order. */
  const UserKeys: seq<UserKey> := [
    UserKey.Name, UserKey.Email, UserKey.Login, UserKey.Id,
    UserKey.NodeId, UserKey.GravatarId, UserKey.AvatarURL, UserKey.HtmlURL]

  /** Where `k` sits in `UserKeys`. */
  function UserKeyIndex(k: UserKey): (i: nat)
    ensures i < |UserKeys| && UserKeys[i] == k
  {
    match k
    case Name => 0
    case Email => 1
    case Login => 2
    case Id => 3
    case NodeId => 4
    case GravatarId => 5
    case AvatarURL => 6
    case HtmlURL => 7
  }

  /** No two user properties share a wire key. */
  lemma UserWireKeyInjective()
    ensures Injective(UserWireKey)
  {
    forall a, b | UserWireKey(a) == UserWireKey(b)
      ensures a == b
    {
      UserKeyOfWireKey(b);
    }
  }

  /** `UserKeys` lists every case. */
  lemma UserKeysComplete()
    ensures forall k :: k in UserKeys
  {
    forall k: UserKey
      ensures k in UserKeys
    {
      assert UserKeys[UserKeyIndex(k)] == k;
    }
  }

  /** What the encoder writes for property `k` of `u`. */
  function UserEntry(u: User, k: UserKey): Option<Json.Value> {
    match k
    case Name => OptString(u.name)
    case Email => OptString(u.email)
    case Login => Some(Json.Str(u.login))
    case Id => Some(Json.Number(u.id))
    case NodeId => Some(Json.Str(u.nodeId))
    case GravatarId => Some(Json.Str(u.gravatarId))
    case AvatarURL => Some(Json.Str(u.avatarURL.text))
    case HtmlURL => Some(Json.Str(u.htmlURL.text))
  }

  /**
   The object the synthesized `encode(to:)` writes: exactly the wire keys of
   the properties that have a value, each holding its property's encoding.
   */
  function EncodeUser(u: User): (o: Fields)
    ensures forall w :: w in o <==> UserKeyOf(w).Some? && UserEntry(u, UserKeyOf(w).value).Some?
    ensures forall w :: w in o ==> o[w] == UserEntry(u, UserKeyOf(w).value).value
  {
    var entry := k => UserEntry(u, k);
    var o := EncodeEntries(UserKeys, UserWireKey, entry);
    assert forall w :: (w in o <==> UserKeyOf(w).Some? && entry(UserKeyOf(w).value).Some?) &&
                      (w in o ==> o[w] == entry(UserKeyOf(w).value).value) by {
      UserWireKeyInjective();
      UserKeysComplete();
      forall w
        ensures w in o <==> UserKeyOf(w).Some? && entry(UserKeyOf(w).value).Some?
        ensures w in o ==> o[w] == entry(UserKeyOf(w).value).value
      {
        if w in o {
          EncodeEntriesListed(UserKeys, UserWireKey, entry, w);
          var i :| 0 <= i < |UserKeys| && UserWireKey(UserKeys[i]) == w && entry(UserKeys[i]).Some?;
          UserKeyOfWireKey(UserKeys[i]);
        }
        if UserKeyOf(w).Some? {
          EncodeEntriesWrites(UserKeys, UserWireKey, entry, UserKeyOf(w).value);
        }
      }
    }
    o
  }

  /** The cases of `GithubAsset.CodingKeys` in declaration order. */
  const AssetKeys: seq<AssetKey> := [
    AssetKey.Url, AssetKey.Id, AssetKey.Name, AssetKey.Size, AssetKey.State,
    AssetKey.DownloadCount, AssetKey.ContentType, AssetKey.NodeId,
    AssetKey.BrowserDownloadURL, AssetKey.CreatedAt, AssetKey.UpdatedAt]

  /** Where `k` sits in `AssetKeys`. */
  function AssetKeyIndex(k: AssetKey): (i: nat)
    ensures i < |AssetKeys| && AssetKeys[i] == k
  {
    match k
    case Url => 0
    case Id => 1
    case Name => 2
    case Size => 3
    case State => 4
    case DownloadCount => 5
    case ContentType => 6
    case NodeId => 7
    case BrowserDownloadURL => 8
    case CreatedAt => 9
    case UpdatedAt => 10
  }

  /** No two asset properties share a wire key. */
  lemma AssetWireKeyInjective()
    ensures Injective(AssetWireKey)
  {
    forall a, b | AssetWireKey(a) == AssetWireKey(b)
      ensures a == b
    {
      AssetKeyOfWireKey(b);
    }
  }

  /** `AssetKeys` lists every case. */
  lemma AssetKeysComplete()
    ensures forall k :: k in AssetKeys
  {
    forall k: AssetKey
      ensures k in AssetKeys
    {
      assert AssetKeys[AssetKeyIndex(k)] == k;
    }
  }

  function AssetEntry(a: Asset, k: AssetKey): Option<Json.Value> {
    match k
    case BrowserDownloadURL => Some(Json.Str(a.browserDownloadURL.text))
    case Url => Some(Json.Str(a.url.text))
    case Id => Some(Json.Number(a.id))
    case NodeId => Some(Json.Str(a.nodeId))
    case Name => Some(Json.Str(a.name))
    case ContentType => Some(Json.Str(a.contentType))
    case Size => Some(Json.Number(a.size))
    case DownloadCount => Some(Json.Number(a.downloadCount))
    case CreatedAt => Some(Json.Str(a.createdAt.text))
    case UpdatedAt => Some(Json.Str(a.updatedAt.text))
    case State => Some(Json.Str(AssetStateRaw(a.state)))
  }

  /**
   The object the synthesized `encode(to:)` writes: exactly the wire keys of
   the properties that have a value, each holding its property's encoding.
   */
  function EncodeAsset(a: Asset): (o: Fields)
    ensures forall w :: w in o <==> AssetKeyOf(w).Some? && AssetEntry(a, AssetKeyOf(w).value).Some?
    ensures forall w :: w in o ==> o[w] == AssetEntry(a, AssetKeyOf(w).value).value
  {
    var entry := k => AssetEntry(a, k);
    var o := EncodeEntries(AssetKeys, AssetWireKey, entry);
    assert forall w :: (w in o <==> AssetKeyOf(w).Some? && entry(AssetKeyOf(w).value).Some?) &&
                      (w in o ==> o[w] == entry(AssetKeyOf(w).value).value) by {
      AssetWireKeyInjective();
      AssetKeysComplete();
      forall w
        ensures w in o <==> AssetKeyOf(w).Some? && entry(AssetKeyOf(w).value).Some?
        ensures w in o ==> o[w] == entry(AssetKeyOf(w).value).value
      {
        if w in o {
          EncodeEntriesListed(AssetKeys, AssetWireKey, entry, w);
          var i :| 0 <= i < |AssetKeys| && AssetWireKey(AssetKeys[i]) == w && entry(AssetKeys[i]).Some?;
          AssetKeyOfWireKey(AssetKeys[i]);
        }
        if AssetKeyOf(w).Some? {
          EncodeEntriesWrites(AssetKeys, AssetWireKey, entry, AssetKeyOf(w).value);
        }
      }
    }
    o
  }

  function EncodeAssetList(assets: seq<Asset>): (items: seq<Json.Value>)
    ensures |items| == |assets|
    ensures forall i :: 0 <= i < |assets| ==> items[i] == Json.Object(EncodeAsset(assets[i]))
  {
    seq(|assets|, i requires 0 <= i < |assets| => Json.Object(EncodeAsset(assets[i])))
  }

  /** The cases of `GithubRelease.CodingKeys` in declaration order. */
  const ReleaseKeys: seq<ReleaseKey> := [
    ReleaseKey.Name, ReleaseKey.Draft, ReleaseKey.Assets, ReleaseKey.Id,
    ReleaseKey.Body, ReleaseKey.Prerelease, ReleaseKey.Author,
    ReleaseKey.TagName, ReleaseKey.AssetsURL, ReleaseKey.UploadURL,
    ReleaseKey.HtmlURL, ReleaseKey.NodeId, ReleaseKey.CreatedAt,
    ReleaseKey.PublishedAt, ReleaseKey.TargetCommitish, ReleaseKey.DiscussionURL]

  /** Where `k` sits in `ReleaseKeys`. */
  function ReleaseKeyIndex(k: ReleaseKey): (i: nat)
    ensures i < |ReleaseKeys| && ReleaseKeys[i] == k
  {
    match k
    case Name => 0
    case Draft => 1
    case Assets => 2
    case Id => 3
    case Body => 4
    case Prerelease => 5
    case Author => 6
    case TagName => 7
    case AssetsURL => 8
    case UploadURL => 9
    case HtmlURL => 10
    case NodeId => 11
    case CreatedAt => 12
    case PublishedAt => 13
    case TargetCommitish => 14
    case DiscussionURL => 15
  }

  /** No two release properties share a wire key. */
  lemma ReleaseWireKeyInjective()
    ensures Injective(ReleaseWireKey)
  {
    forall a, b | ReleaseWireKey(a) == ReleaseWireKey(b)
      ensures a == b
    {
      ReleaseKeyOfWireKey(b);
    }
  }

  /** `ReleaseKeys` lists every case. */
  lemma ReleaseKeysComplete()
    ensures forall k :: k in ReleaseKeys
  {
    forall k: ReleaseKey
      ensures k in ReleaseKeys
    {
      assert ReleaseKeys[ReleaseKeyIndex(k)] == k;
    }
  }

  function ReleaseEntry(r: Release, k: ReleaseKey): Option<Json.Value> {
    match k
    case Name => Some(Json.Str(r.name))
    case Draft => Some(Json.Bool(r.draft))
    case Prerelease => Some(Json.Bool(r.prerelease))
    case TagName => Some(Json.Str(r.tagName))
    case Body => Some(Json.Str(r.body))
    case TargetCommitish => Some(Json.Str(r.targetCommitish))
    case DiscussionURL => OptUrl(r.discussionURL)
    case CreatedAt => OptDate(r.createdAt)
    case PublishedAt => OptDate(r.publishedAt)
    case UploadURL => Some(Json.Str(r.uploadURL))
    case AssetsURL => Some(Json.Str(r.assetsURL.text))
    case HtmlURL => Some(Json.Str(r.htmlURL.text))
    case Id => Some(Json.Number(r.id))
    case NodeId => Some(Json.Str(r.nodeId))
    case Assets => Some(Json.Array(EncodeAssetList(r.assets)))
    case Author => Some(Json.Object(EncodeUser(r.author)))
  }

  /**
   The object the synthesized `encode(to:)` writes: exactly the wire keys of
   the properties that have a value, each holding its property's encoding.
   */
  function EncodeRelease(r: Release): (o: Fields)
    ensures forall w :: w in o <==> ReleaseKeyOf(w).Some? && ReleaseEntry(r, ReleaseKeyOf(w).value).Some?
    ensures forall w :: w in o ==> o[w] == ReleaseEntry(r, ReleaseKeyOf(w).value).value
  {
    var entry := k => ReleaseEntry(r, k);
    var o := EncodeEntries(ReleaseKeys, ReleaseWireKey, entry);
    assert forall w :: (w in o <==> ReleaseKeyOf(w).Some? && entry(ReleaseKeyOf(w).value).Some?) &&
                      (w in o ==> o[w] == entry(ReleaseKeyOf(w).value).value) by {
      ReleaseWireKeyInjective();
      ReleaseKeysComplete();
      forall w
        ensures w in o <==> ReleaseKeyOf(w).Some? && entry(ReleaseKeyOf(w).value).Some?
        ensures w in o ==> o[w] == entry(ReleaseKeyOf(w).value).value
      {
        if w in o {
          EncodeEntriesListed(ReleaseKeys, ReleaseWireKey, entry, w);
          var i :| 0 <= i < |ReleaseKeys| && ReleaseWireKey(ReleaseKeys[i]) == w && entry(ReleaseKeys[i]).Some?;
          ReleaseKeyOfWireKey(ReleaseKeys[i]);
        }
        if ReleaseKeyOf(w).Some? {
          EncodeEntriesWrites(ReleaseKeys, ReleaseWireKey, entry, ReleaseKeyOf(w).value);
        }
      }
    }
    o
  }

  function EncodeReleases(releases: seq<Release>): (doc: Json.Value)
    ensures doc.Array? && |doc.items| == |releases|
    ensures forall i :: 0 <= i < |releases| ==> doc.items[i] == Json.Object(EncodeRelease(releases[i]))
  {
    Json.Array(seq(|releases|, i requires 0 <= i < |releases| => Json.Object(EncodeRelease(releases[i]))))
  }
}

=== FILE: github_lemmas.dfy ===
/**
 Properties of the GitHub records' `Codable` conformance: the key tables are
 injective, decoding undoes encoding, a missing required key always fails,
 and a missing optional key decodes to nil.
 */
module GitHubLemmas {
  import opened Results
  import Json
  import opened GitHub

  /** `o` holds every entry of a record under its wire key. */
  ghost predicate Carries<K(!new)>(o: Fields, wire: K -> string, entry: K -> Option<Json.Value>) {
    forall k :: HoldsEntry(o, wire(k), entry(k))
  }

  // ---------------------------------------------------------------------------
  // Decoding steps, one lemma per kind of field
  // ---------------------------------------------------------------------------

  lemma StringStep(o: Fields, key: string, s: string)
    requires HoldsEntry(o, key, Some(Json.Str(s)))
    ensures Required(o, key, AsString) == Success(s)
  {
  }

  lemma BoolStep(o: Fields, key: string, b: bool)
    requires HoldsEntry(o, key, Some(Json.Bool(b)))
    ensures Required(o, key, AsBool) == Success(b)
  {
  }

  lemma IntStep(o: Fields, key: string, i: Int)
    requires HoldsEntry(o, key, Some(Json.Number(i)))
    ensures Required(o, key, AsInt) == Success(i)
  {
  }

  lemma UrlStep(o: Fields, key: string, u: Url)
    requires HoldsEntry(o, key, Some(Json.Str(u.text)))
    ensures Required(o, key, AsUrl) == Success(u)
  {
  }

  lemma DateStep(o: Fields, key: string, d: Date)
    requires HoldsEntry(o, key, Some(Json.Str(d.text)))
    ensures Required(o, key, AsDate) == Success(d)
  {
  }

  lemma StateStep(o: Fields, key: string, st: AssetState)
    requires HoldsEntry(o, key, Some(Json.Str(AssetStateRaw(st))))
    ensures Required(o, key, AsState) == Success(st)
  {
  }

  lemma OptionalStringStep(o: Fields, key: string, s: Option<string>)
    requires HoldsEntry(o, key, OptString(s))
    ensures IfPresent(o, key, AsString) == Success(s)
  {
  }

  lemma OptionalUrlStep(o: Fields, key: string, u: Option<Url>)
    requires HoldsEntry(o, key, OptUrl(u))
    ensures IfPresent(o, key, AsUrl) == Success(u)
  {
  }

  lemma OptionalDateStep(o: Fields, key: string, d: Option<Date>)
    requires HoldsEntry(o, key, OptDate(d))
    ensures IfPresent(o, key, AsDate) == Success(d)
  {
  }

  // ---------------------------------------------------------------------------
  // Users
  // ---------------------------------------------------------------------------

  function UserEntries(u: User): UserKey -> Option<Json.Value> {
    k => UserEntry(u, k)
  }

  lemma DecodeCarriedUser(o: Fields, u: User)
    requires Carries(o, UserWireKey, UserEntries(u))
    ensures DecodeUser(o) == Success(u)
  {
    var e := UserEntries(u);
    assert HoldsEntry(o, UserWireKey(UserKey.Name), e(UserKey.Name));
    assert HoldsEntry(o, UserWireKey(UserKey.Email), e(UserKey.Email));
    assert HoldsEntry(o, UserWireKey(UserKey.Login), e(UserKey.Login));
    assert HoldsEntry(o, UserWireKey(UserKey.Id), e(UserKey.Id));
    assert HoldsEntry(o, UserWireKey(UserKey.NodeId), e(UserKey.NodeId));
    assert HoldsEntry(o, UserWireKey(UserKey.GravatarId), e(UserKey.GravatarId));
    assert HoldsEntry(o, UserWireKey(UserKey.AvatarURL), e(UserKey.AvatarURL));
    assert HoldsEntry(o, UserWireKey(UserKey.HtmlURL), e(UserKey.HtmlURL));
    OptionalStringStep(o, UserWireKey(UserKey.Name), u.name);
    OptionalStringStep(o, UserWireKey(UserKey.Email), u.email);
    StringStep(o, UserWireKey(UserKey.Login), u.login);
    IntStep(o, UserWireKey(UserKey.Id), u.id);
    StringStep(o, UserWireKey(UserKey.NodeId), u.nodeId);
    StringStep(o, UserWireKey(UserKey.GravatarId), u.gravatarId);
    UrlStep(o, UserWireKey(UserKey.AvatarURL), u.avatarURL);
    UrlStep(o, UserWireKey(UserKey.HtmlURL), u.htmlURL);
  }

  lemma UserRoundTrip(u: User)
    ensures DecodeUser(EncodeUser(u)) == Success(u)
  {
    forall k: UserKey
      ensures HoldsEntry(EncodeUser(u), UserWireKey(k), UserEntries(u)(k))
    {
      UserKeyOfWireKey(k);
    }
    assert Carries(EncodeUser(u), UserWireKey, UserEntries(u));
    DecodeCarriedUser(EncodeUser(u), u);
  }

  // ---------------------------------------------------------------------------
  // Assets
  // ---------------------------------------------------------------------------

  function AssetEntries(a: Asset): AssetKey -> Option<Json.Value> {
    k => AssetEntry(a, k)
  }

  lemma DecodeCarriedAsset(o: Fields, a: Asset)
    requires Carries(o, AssetWireKey, AssetEntries(a))
    ensures DecodeAsset(o) == Success(a)
  {
    var e := AssetEntries(a);
    assert HoldsEntry(o, AssetWireKey(AssetKey.BrowserDownloadURL), e(AssetKey.BrowserDownloadURL));
    assert HoldsEntry(o, AssetWireKey(AssetKey.Url), e(AssetKey.Url));
    assert HoldsEntry(o, AssetWireKey(AssetKey.Id), e(AssetKey.Id));
    assert HoldsEntry(o, AssetWireKey(AssetKey.NodeId), e(AssetKey.NodeId));
    assert HoldsEntry(o, AssetWireKey(AssetKey.Name), e(AssetKey.Name));
    assert HoldsEntry(o, AssetWireKey(AssetKey.ContentType), e(AssetKey.ContentType));
    assert HoldsEntry(o, AssetWireKey(AssetKey.Size), e(AssetKey.Size));
    assert HoldsEntry(o, AssetWireKey(AssetKey.DownloadCount), e(AssetKey.DownloadCount));
    assert HoldsEntry(o, AssetWireKey(AssetKey.CreatedAt), e(AssetKey.CreatedAt));
    assert HoldsEntry(o, AssetWireKey(AssetKey.UpdatedAt), e(AssetKey.UpdatedAt));
    assert HoldsEntry(o, AssetWireKey(AssetKey.State), e(AssetKey.State));
    UrlStep(o, AssetWireKey(AssetKey.BrowserDownloadURL), a.browserDownloadURL);
    UrlStep(o, AssetWireKey(AssetKey.Url), a.url);
    IntStep(o, AssetWireKey(AssetKey.Id), a.id);
    StringStep(o, AssetWireKey(AssetKey.NodeId), a.nodeId);
    StringStep(o, AssetWireKey(AssetKey.Name), a.name);
    StringStep(o, AssetWireKey(AssetKey.ContentType), a.contentType);
    IntStep(o, AssetWireKey(AssetKey.Size), a.size);
    IntStep(o, AssetWireKey(AssetKey.DownloadCount), a.downloadCount);
    DateStep(o, AssetWireKey(AssetKey.CreatedAt), a.createdAt);
    DateStep(o, AssetWireKey(AssetKey.UpdatedAt), a.updatedAt);
    StateStep(o, AssetWireKey(AssetKey.State), a.state);
  }

  lemma AssetRoundTrip(a: Asset)
    ensures DecodeAsset(EncodeAsset(a)) == Success(a)
  {
    forall k: AssetKey
      ensures HoldsEntry(EncodeAsset(a), AssetWireKey(k), AssetEntries(a)(k))
    {
      AssetKeyOfWireKey(k);
    }
    assert Carries(EncodeAsset(a), AssetWireKey, AssetEntries(a));
    DecodeCarriedAsset(EncodeAsset(a), a);
  }

  lemma {:induction false} AssetListRoundTrip(key: string, assets: seq<Asset>)
    ensures DecodeList(key, EncodeAssetList(assets), AsAsset) == Success(assets)
  {
    var items := EncodeAssetList(assets);
    forall i | 0 <= i < |items|
      ensures AsAsset(key, items[i]) == Success(assets[i])
    {
      AssetRoundTrip(assets[i]);
    }
    var r := DecodeList(key, items, AsAsset);
    assert r.value == assets;
  }

  // ---------------------------------------------------------------------------
  // Releases
  // ---------------------------------------------------------------------------

  function ReleaseEntries(r: Release): ReleaseKey -> Option<Json.Value> {
    k => ReleaseEntry(r, k)
  }

  lemma AssetsStep(o: Fields, r: Release)
    requires HoldsEntry(o, ReleaseWireKey(ReleaseKey.Assets), ReleaseEntry(r, ReleaseKey.Assets))
    ensures Required(o, ReleaseWireKey(ReleaseKey.Assets), AsAssets) == Success(r.assets)
  {
    var key := ReleaseWireKey(ReleaseKey.Assets);
    assert ReleaseEntry(r, ReleaseKey.Assets).Some?;
    assert key in o;
    assert o[key].Array?;
    assert o[key].items == EncodeAssetList(r.assets);
    AssetListRoundTrip(key, r.assets);
  }

  lemma AuthorStep(o: Fields, r: Release)
    requires HoldsEntry(o, ReleaseWireKey(ReleaseKey.Author), ReleaseEntry(r, ReleaseKey.Author))
    ensures Required(o, ReleaseWireKey(ReleaseKey.Author), AsUser) == Success(r.author)
  {
    var key := ReleaseWireKey(ReleaseKey.Author);
    assert ReleaseEntry(r, ReleaseKey.Author).Some?;
    assert key in o;
    assert o[key].Object?;
    assert o[key].fields == EncodeUser(r.author);
    UserRoundTrip(r.author);
  }

  /** The scalar reads of `DecodeReleaseHead` yield the matching properties of `r`. */
  predicate ReleaseHeadYields(o: Fields, r: Release) {
    && Required(o, ReleaseWireKey(ReleaseKey.Name), AsString) == Success(r.name)
    && Required(o, ReleaseWireKey(ReleaseKey.Draft), AsBool) == Success(r.draft)
    && Required(o, ReleaseWireKey(ReleaseKey.Id), AsInt) == Success(r.id)
    && Required(o, ReleaseWireKey(ReleaseKey.Body), AsString) == Success(r.body)
    && Required(o, ReleaseWireKey(ReleaseKey.Prerelease), AsBool) == Success(r.prerelease)
  }

  /** The reads of `DecodeReleaseTail` yield the matching properties of `r`. */
  predicate ReleaseTailYields(o: Fields, r: Release) {
    && Required(o, ReleaseWireKey(ReleaseKey.TagName), AsString) == Success(r.tagName)
    && Required(o, ReleaseWireKey(ReleaseKey.AssetsURL), AsUrl) == Success(r.assetsURL)
    && Required(o, ReleaseWireKey(ReleaseKey.UploadURL), AsString) == Success(r.uploadURL)
    && Required(o, ReleaseWireKey(ReleaseKey.HtmlURL), AsUrl) == Success(r.htmlURL)
    && Required(o, ReleaseWireKey(ReleaseKey.NodeId), AsString) == Success(r.nodeId)
    && IfPresent(o, ReleaseWireKey(ReleaseKey.CreatedAt), AsDate) == Success(r.createdAt)
    && IfPresent(o, ReleaseWireKey(ReleaseKey.PublishedAt), AsDate) == Success(r.publishedAt)
    && Required(o, ReleaseWireKey(ReleaseKey.TargetCommitish), AsString) == Success(r.targetCommitish)
    && IfPresent(o, ReleaseWireKey(ReleaseKey.DiscussionURL), AsUrl) == Success(r.discussionURL)
  }

  /** The nested reads (assets and author) yield the matching properties of `r`. */
  predicate ReleaseNestedYields(o: Fields, r: Release) {
    && Required(o, ReleaseWireKey(ReleaseKey.Assets), AsAssets) == Success(r.assets)
    && Required(o, ReleaseWireKey(ReleaseKey.Author), AsUser) == Success(r.author)
  }

  lemma DecodeReleaseBySteps(o: Fields, r: Release)
    requires ReleaseHeadYields(o, r)
    requires ReleaseTailYields(o, r)
    requires ReleaseNestedYields(o, r)
    ensures DecodeRelease(o) == Success(r)
  {
    assert DecodeReleaseHead(o) == Success(HeadOf(r));
    assert DecodeReleaseTail(o, HeadOf(r)) == Success(r);
  }

  lemma CarriedReleaseHead(o: Fields, r: Release)
    requires Carries(o, ReleaseWireKey, ReleaseEntries(r))
    ensures ReleaseHeadYields(o, r)
  {
    var e := ReleaseEntries(r);
    assert HoldsEntry(o, ReleaseWireKey(ReleaseKey.Name), e(ReleaseKey.Name));
    assert HoldsEntry(o, ReleaseWireKey(ReleaseKey.Draft), e(ReleaseKey.Draft));
    assert HoldsEntry(o, ReleaseWireKey(ReleaseKey.Id), e(ReleaseKey.Id));
    assert HoldsEntry(o, ReleaseWireKey(ReleaseKey.Body), e(ReleaseKey.Body));
    assert HoldsEntry(o, ReleaseWireKey(ReleaseKey.Prerelease), e(ReleaseKey.Prerelease));
    StringStep(o, ReleaseWireKey(ReleaseKey.Name), r.name);
    BoolStep(o, ReleaseWireKey(ReleaseKey.Draft), r.draft);
    IntStep(o, ReleaseWireKey(ReleaseKey.Id), r.id);
    StringStep(o, ReleaseWireKey(ReleaseKey.Body), r.body);
    BoolStep(o, ReleaseWireKey(ReleaseKey.Prerelease), r.prerelease);
  }

  lemma CarriedReleaseTail(o: Fields, r: Release)
    requires Carries(o, ReleaseWireKey, ReleaseEntries(r))
    ensures ReleaseTailYields(o, r)
  {
    var e := ReleaseEntries(r);
    assert HoldsEntry(o, ReleaseWireKey(ReleaseKey.TagName), e(ReleaseKey.TagName));
    assert HoldsEntry(o, ReleaseWireKey(ReleaseKey.AssetsURL), e(ReleaseKey.AssetsURL));
    assert HoldsEntry(o, ReleaseWireKey(ReleaseKey.UploadURL), e(ReleaseKey.UploadURL));
    assert HoldsEntry(o, ReleaseWireKey(ReleaseKey.HtmlURL), e(ReleaseKey.HtmlURL));
    assert HoldsEntry(o, ReleaseWireKey(ReleaseKey.NodeId), e(ReleaseKey.NodeId));
    assert HoldsEntry(o, ReleaseWireKey(ReleaseKey.CreatedAt), e(ReleaseKey.CreatedAt));
    assert HoldsEntry(o, ReleaseWireKey(ReleaseKey.PublishedAt), e(ReleaseKey.PublishedAt));
    assert HoldsEntry(o, ReleaseWireKey(ReleaseKey.TargetCommitish), e(ReleaseKey.TargetCommitish));
    assert HoldsEntry(o, ReleaseWireKey(ReleaseKey.DiscussionURL), e(ReleaseKey.DiscussionURL));
    StringStep(o, ReleaseWireKey(ReleaseKey.TagName), r.tagName);
    UrlStep(o, ReleaseWireKey(ReleaseKey.AssetsURL), r.assetsURL);
    StringStep(o, ReleaseWireKey(ReleaseKey.UploadURL), r.uploadURL);
    UrlStep(o, ReleaseWireKey(ReleaseKey.HtmlURL), r.htmlURL);
    StringStep(o, ReleaseWireKey(ReleaseKey.NodeId), r.nodeId);
    OptionalDateStep(o, ReleaseWireKey(ReleaseKey.CreatedAt), r.createdAt);
    OptionalDateStep(o, ReleaseWireKey(ReleaseKey.PublishedAt), r.publishedAt);
    StringStep(o, ReleaseWireKey(ReleaseKey.TargetCommitish), r.targetCommitish);
    OptionalUrlStep(o, ReleaseWireKey(ReleaseKey.DiscussionURL), r.discussionURL);
  }

  lemma CarriedReleaseNested(o: Fields, r: Release)
    requires Carries(o, ReleaseWireKey, ReleaseEntries(r))
    ensures ReleaseNestedYields(o, r)
  {
    var e := ReleaseEntries(r);
    assert HoldsEntry(o, ReleaseWireKey(ReleaseKey.Assets), e(ReleaseKey.Assets));
    assert HoldsEntry(o, ReleaseWireKey(ReleaseKey.Author), e(ReleaseKey.Author));
    AssetsStep(o, r);
    AuthorStep(o, r);
  }

  /** Any object holding every entry of `r` under its wire key decodes to `r`. */
  lemma DecodeCarriedRelease(o: Fields, r: Release)
    requires Carries(o, ReleaseWireKey, ReleaseEntries(r))
    ensures DecodeRelease(o) == Success(r)
  {
    CarriedReleaseHead(o, r);
    CarriedReleaseTail(o, r);
    CarriedReleaseNested(o, r);
    DecodeReleaseBySteps(o, r);
  }

  lemma ReleaseRoundTrip(r: Release)
    ensures DecodeRelease(EncodeRelease(r)) == Success(r)
  {
    forall k: ReleaseKey
      ensures HoldsEntry(EncodeRelease(r), ReleaseWireKey(k), ReleaseEntries(r)(k))
    {
      ReleaseKeyOfWireKey(k);
    }
    assert Carries(EncodeRelease(r), ReleaseWireKey, ReleaseEntries(r));
    DecodeCarriedRelease(EncodeRelease(r), r);
  }

  /** Each element of an encoded release list decodes to its release. */
  lemma EncodedReleasesDecodeEach(releases: seq<Release>)
    ensures forall i :: 0 <= i < |releases| ==> AsRelease("", EncodeReleases(releases).items[i]) == Success(releases[i])
  {
    forall i | 0 <= i < |releases|
      ensures AsRelease("", EncodeReleases(releases).items[i]) == Success(releases[i])
    {
      ReleaseRoundTrip(releases[i]);
    }
  }

  /** Decoding the array produced by encoding a release list gives the list back. */
  lemma {:induction false} ReleasesRoundTrip(releases: seq<Release>)
    ensures DecodeReleases(EncodeReleases(releases)) == Success(releases)
  {
    EncodedReleasesDecodeEach(releases);
    var r := DecodeList("", EncodeReleases(releases).items, AsRelease);
    assert r.value == releases;
  }

  // ---------------------------------------------------------------------------
  // Which fault is reported
  // ---------------------------------------------------------------------------

  /**
   Keys are read in `CodingKeys` case order: an object holding only `name`
   and `draft` fails on `assets`, the third case, not on `prerelease`, the
   third property.
   */
  lemma ReleaseReadsAssetsThird()
    ensures DecodeRelease(map["name" := Json.Str("x"), "draft" := Json.Bool(false)]) == Failure(KeyNotFound("assets"))
  {
  }

  /**
   An asset object whose `url` is a number, and that lacks every other key,
   fails with a type mismatch on `url`, the first case, not with a missing
   `browser_download_url`, the first property.
   */
  lemma AssetReadsUrlFirst()
    ensures DecodeAsset(map["url" := Json.Number(5)]) == Failure(TypeMismatch("url"))
  {
  }

  // ---------------------------------------------------------------------------
  // Required and optional keys
  // ---------------------------------------------------------------------------

  /** Any object lacking a required release key fails to decode. */
  lemma MissingRequiredReleaseKey(o: Fields, k: ReleaseKey)
    requires !IsOptionalReleaseKey(k)
    requires ReleaseWireKey(k) !in o
    ensures DecodeRelease(o).Failure?
  {
  }

  /** The release with the optional property `k` set to nil. */
  function ClearOptional(r: Release, k: ReleaseKey): Release
    requires IsOptionalReleaseKey(k)
  {
    match k
    case DiscussionURL => r.(discussionURL := None)
    case CreatedAt => r.(createdAt := None)
    case PublishedAt => r.(publishedAt := None)
  }

  /** Clearing `k` empties its entry and leaves every other entry as it was. */
  lemma ClearOptionalEntries(r: Release, k: ReleaseKey, j: ReleaseKey)
    requires IsOptionalReleaseKey(k)
    ensures ReleaseEntry(ClearOptional(r, k), j) == if j == k then None else ReleaseEntry(r, j)
  {
  }

  /** After dropping the optional key `k`, the object still holds every entry of the cleared release. */
  lemma ClearedReleaseEntryHeld(r: Release, k: ReleaseKey, j: ReleaseKey)
    requires IsOptionalReleaseKey(k)
    ensures HoldsEntry(EncodeRelease(r) - {ReleaseWireKey(k)}, ReleaseWireKey(j), ReleaseEntry(ClearOptional(r, k), j))
  {
    ClearOptionalEntries(r, k, j);
    ReleaseKeyOfWireKey(j);
    ReleaseKeyOfWireKey(k);
  }

  /** Dropping an optional key from an encoded release decodes to nil there. */
  lemma MissingOptionalReleaseKey(r: Release, k: ReleaseKey)
    requires IsOptionalReleaseKey(k)
    ensures DecodeRelease(EncodeRelease(r) - {ReleaseWireKey(k)}) == Success(ClearOptional(r, k))
  {
    var o' := EncodeRelease(r) - {ReleaseWireKey(k)};
    var r' := ClearOptional(r, k);
    forall j
      ensures HoldsEntry(o', ReleaseWireKey(j), ReleaseEntries(r')(j))
    {
      ClearedReleaseEntryHeld(r, k, j);
    }
    DecodeCarriedRelease(o', r');
  }

  lemma MissingRequiredUserKey(o: Fields, k: UserKey)
    requires !IsOptionalUserKey(k)
    requires UserWireKey(k) !in o
    ensures DecodeUser(o).Failure?
  {
  }

  function ClearOptionalUser(u: User, k: UserKey): User
    requires IsOptionalUserKey(k)
  {
    match k
    case Name => u.(name := None)
    case Email => u.(email := None)
  }

  /** After dropping the optional key `k`, the object still holds every entry of the cleared user. */
  lemma ClearedUserEntryHeld(u: User, k: UserKey, j: UserKey)
    requires IsOptionalUserKey(k)
    ensures HoldsEntry(EncodeUser(u) - {UserWireKey(k)}, UserWireKey(j), UserEntry(ClearOptionalUser(u, k), j))
  {
    UserKeyOfWireKey(j);
    UserKeyOfWireKey(k);
    if j != k {
      assert UserEntry(ClearOptionalUser(u, k), j) == UserEntry(u, j);
    }
  }

  /** Dropping an optional key from an encoded user decodes to nil there. */
  lemma MissingOptionalUserKey(u: User, k: UserKey)
    requires IsOptionalUserKey(k)
    ensures DecodeUser(EncodeUser(u) - {UserWireKey(k)}) == Success(ClearOptionalUser(u, k))
  {
    var o' := EncodeUser(u) - {UserWireKey(k)};
    var u' := ClearOptionalUser(u, k);
    forall j
      ensures HoldsEntry(o', UserWireKey(j), UserEntries(u')(j))
    {
      ClearedUserEntryHeld(u, k, j);
    }
    DecodeCarriedUser(o', u');
  }

  /** Every asset key is required, the timestamps included. */
  lemma MissingAssetKey(o: Fields, k: AssetKey)
    requires AssetWireKey(k) !in o
    ensures DecodeAsset(o).Failure?
  {
  }
}

=== FILE: json.dfy ===
/**
 The decoded JSON document that `JSONDecoder` walks. Only integral numbers
 are represented: no field of the GitHub records is floating point.
 */
module Json {

  datatype Value =
    | Null
    | Bool(b: bool)
    | Number(n: int)
    | Str(s: string)
    | Array(items: seq<Value>)
    | Object(fields: map<string, Value>)
}

=== FILE: release_url.dfy ===
/**
 `Updater.releaseURL(max:)`: the project's URL, taken apart into its
 components, rewritten into the GitHub REST endpoint that lists the
 repository's releases.
 */
module ReleaseUrl {
  import opened Results
  import Decimal

  datatype QueryItem = QueryItem(name: string, value: Option<string>)

  /** A URL taken apart as `URLComponents` does, with its path percent-decoded. */
  datatype UrlComponents = UrlComponents(
    scheme: Option<string>,
    user: Option<string>,
    password: Option<string>,
    host: Option<string>,
    port: Option<int>,
    path: string,
    query: Option<seq<QueryItem>>,
    fragment: Option<string>)

  const ApiHost: string := "api.github.com"
  const PathPrefix: string := "/repos"
  const PathSuffix: string := "/releases"
  const PageSizeName: string := "per_page"

  /**
   The releases endpoint for `project`: only the host, the path and the
   query change; the query is replaced by the single page-size item.
   */
  function ReleaseURL(project: UrlComponents, max: int): (u: UrlComponents)
    ensures u.scheme == project.scheme && u.user == project.user && u.password == project.password
    ensures u.port == project.port && u.fragment == project.fragment
    ensures u.host == Some(ApiHost)
    ensures |u.path| == |PathPrefix| + |project.path| + |PathSuffix|
    ensures u.path[..|PathPrefix|] == PathPrefix
    ensures u.path[|PathPrefix|..|u.path| - |PathSuffix|] == project.path
    ensures u.path[|u.path| - |PathSuffix|..] == PathSuffix
    ensures u.query.Some? && |u.query.value| == 1
    ensures u.query.value[0].name == PageSizeName
    ensures u.query.value[0].value.Some? && Decimal.ParseDecimal(u.query.value[0].value.value) == Some(max)
    ensures u.query.value[0].value == Some(Decimal.Describe(max))
  {
    Decimal.DescribeRoundTrip(max);
    var path := PathPrefix + project.path + PathSuffix;
    assert path[..|PathPrefix|] == PathPrefix;
    assert path[|PathPrefix|..|path| - |PathSuffix|] == project.path;
    assert path[|path| - |PathSuffix|..] == PathSuffix;
    project.(
      host := Some(ApiHost),
      path := path,
      query := Some([QueryItem(PageSizeName, Some(Decimal.Describe(max)))]))
  }

  /**
   Distinct repositories, or distinct page sizes, never share an endpoint:
   the rewrite loses nothing of the path or of `max`.
   */
  lemma ReleaseURLInjective(p: UrlComponents, q: UrlComponents, m: int, n: int)
    requires ReleaseURL(p, m) == ReleaseURL(q, n)
    ensures p.path == q.path && m == n
    ensures p.scheme == q.scheme && p.port == q.port
  {
  }
}

=== FILE: results.dfy ===
/** Failure-compatible wrappers used throughout the model. */
module Results {

  /** An optional value, Swift's `T?`. */
  datatype Option<+T> = None | Some(value: T)

  /** A value or the error that replaced it; usable with `:-`. */
  datatype Result<+T, +E> = Success(value: T) | Failure(error: E) {

    predicate IsFailure() {
      Failure?
    }

    function PropagateFailure<U>(): Result<U, E>
      requires Failure?
    {
      Failure(error)
    }

    function Extract(): T
      requires Success?
    {
      value
    }
  }
}

=== FILE: settings.dfy ===
/**
 The two persisted settings of an `Updater`, `autoCheckForUpdates` and
 `skippedVersions`, as reads and writes over the user-defaults suite the
 updater was given, modelled as a map from keys to property-list values.
 */
module Settings {
  import opened Results

  /** A property-list value as the defaults store holds it. */
  datatype Value =
    | BoolValue(b: bool)
    | IntValue(i: int)
    | RealValue(x: real)
    | StringValue(s: string)
    | ArrayValue(items: seq<Value>)

  type Store = map<string, Value>

  const SkippedVersionsKey: string := "basicUpdaterSkippedVersions"
  const AutoCheckForUpdatesKey: string := "basicUpdaterAutoCheckForUpdates"

  /** `t` and `s` agree on every key other than `key`. */
  predicate SameExcept(s: Store, t: Store, key: string) {
    && (forall k :: k in s && k != key ==> k in t && t[k] == s[k])
    && (forall k :: k in t && k != key ==> k in s)
  }

  // ---------------------------------------------------------------------------
  // autoCheckForUpdates
  // ---------------------------------------------------------------------------

  /**
   `object(forKey:) as? Bool`: a stored bool, or a stored number, integer
   or floating, that is exactly 0 or 1, which bridges to a bool; any other
   value does not convert.
   */
  function BridgeBool(v: Value): (r: Option<bool>)
    ensures v.BoolValue? ==> r == Some(v.b)
    ensures v.IntValue? ==> (r.Some? <==> v.i == 0 || v.i == 1)
    ensures v.IntValue? && r.Some? ==> r.value == (v.i != 0)
    ensures v.RealValue? ==> (r.Some? <==> v.x == 0.0 || v.x == 1.0)
    ensures v.RealValue? && r.Some? ==> r.value == (v.x != 0.0)
    ensures v.StringValue? || v.ArrayValue? ==> r == None
  {
    match v
    case BoolValue(b) => Some(b)
    case IntValue(i) => if i == 0 then Some(false) else if i == 1 then Some(true) else None
    case RealValue(x) => if x == 0.0 then Some(false) else if x == 1.0 then Some(true) else None
    case _ => None
  }

  /** The getter: the stored value bridged to a bool, or `true` when absent or not convertible. */
  function AutoCheckForUpdates(s: Store): (b: bool)
    ensures AutoCheckForUpdatesKey !in s ==> b
    ensures AutoCheckForUpdatesKey in s && s[AutoCheckForUpdatesKey].BoolValue? ==> b == s[AutoCheckForUpdatesKey].b
    ensures AutoCheckForUpdatesKey in s && BridgeBool(s[AutoCheckForUpdatesKey]).Some? ==> b == BridgeBool(s[AutoCheckForUpdatesKey]).value
    ensures AutoCheckForUpdatesKey in s && BridgeBool(s[AutoCheckForUpdatesKey]).None? ==> b
  {
    if AutoCheckForUpdatesKey in s then
      match BridgeBool(s[AutoCheckForUpdatesKey])
      case Some(b) => b
      case None => true
    else true
  }

  /** The setter: reading back gives `b`, and no other key changes. */
  function SetAutoCheckForUpdates(s: Store, b: bool): (t: Store)
    ensures AutoCheckForUpdates(t) == b
    ensures AutoCheckForUpdatesKey in t
    ensures SameExcept(s, t, AutoCheckForUpdatesKey)
  {
    s[AutoCheckForUpdatesKey := BoolValue(b)]
  }

  // ---------------------------------------------------------------------------
  // skippedVersions
  // ---------------------------------------------------------------------------

  /** The elements of an array value when every one is a string (`as? [String]`). */
  function StringElements(items: seq<Value>): (r: Option<seq<string>>)
    ensures r.Some? <==> forall i :: 0 <= i < |items| ==> items[i].StringValue?
    ensures r.Some? ==> |r.value| == |items|
    ensures r.Some? ==> forall i :: 0 <= i < |items| ==> items[i] == StringValue(r.value[i])
    decreases |items|
  {
    if |items| == 0 then Some([])
    else
      match items[0]
      case StringValue(first) =>
        (match StringElements(items[1..])
         case Some(rest) => Some([first] + rest)
         case None => None)
      case _ => None
  }

  /** `stringArray(forKey:)` applied to a stored value. */
  function StringArray(v: Value): Option<seq<string>> {
    match v
    case ArrayValue(items) => StringElements(items)
    case _ => None
  }

  /** The getter: the stored list of strings, or empty when absent or not such a list. */
  function SkippedVersions(s: Store): (v: seq<string>)
    ensures SkippedVersionsKey !in s ==> v == []
    ensures SkippedVersionsKey in s && StringArray(s[SkippedVersionsKey]).None? ==> v == []
    ensures SkippedVersionsKey in s && StringArray(s[SkippedVersionsKey]).Some? ==> v == StringArray(s[SkippedVersionsKey]).value
  {
    if SkippedVersionsKey in s then
      match StringArray(s[SkippedVersionsKey])
      case Some(v) => v
      case None => []
    else []
  }

  /** How a `[String]` is stored: an array of string values. */
  function StringValues(v: seq<string>): (items: seq<Value>)
    ensures StringElements(items) == Some(v)
  {
    var items := seq(|v|, i requires 0 <= i < |v| => StringValue(v[i]));
    assert StringElements(items).value == v;
    items
  }

  /** The setter: reading back gives `v`, in order and with its duplicates, and no other key changes. */
  function SetSkippedVersions(s: Store, v: seq<string>): (t: Store)
    ensures SkippedVersions(t) == v
    ensures SkippedVersionsKey in t
    ensures SameExcept(s, t, SkippedVersionsKey)
  {
    s[SkippedVersionsKey := ArrayValue(StringValues(v))]
  }

  // ---------------------------------------------------------------------------
  // The two settings are independent
  // ---------------------------------------------------------------------------

  lemma SetAutoCheckKeepsSkipped(s: Store, b: bool)
    ensures SkippedVersions(SetAutoCheckForUpdates(s, b)) == SkippedVersions(s)
  {
  }

  lemma SetSkippedKeepsAutoCheck(s: Store, v: seq<string>)
    ensures AutoCheckForUpdates(SetSkippedVersions(s, v)) == AutoCheckForUpdates(s)
  {
  }
}

=== FILE: updater_vc.dfy ===
/**
 The state behind the update prompt: the tag and the download link it
 records when a release is shown, what its download button does, and the
 one place that writes the skip list.
 */
module UpdaterVC {
  import opened Results
  import opened GitHub
  import opened Settings
  import opened BasicUpdater

  /** The prompt's two recorded values; a fresh prompt has neither. */
  datatype Prompt = Prompt(releaseTag: Option<string>, downloadURL: Option<Url>)

  const Fresh: Prompt := Prompt(None, None)

  /**
   `showRelease`: records the release's tag and the download link of the
   asset the updater's selector picks.
   */
  function ShowRelease(u: Updater, p: Prompt, release: Release): (q: Prompt)
    requires CanSelect(u.assetsClosure, release.assets)
    ensures q.releaseTag == Some(release.tagName)
    ensures q.downloadURL.Some?
    ensures u.assetsClosure.FirstAsset? ==> q.downloadURL == Some(release.assets[0].browserDownloadURL)
    ensures q.downloadURL == Some(SelectAsset(u.assetsClosure, release.assets).browserDownloadURL)
  {
    var asset := SelectAsset(u.assetsClosure, release.assets);
    p.(releaseTag := Some(release.tagName), downloadURL := Some(asset.browserDownloadURL))
  }

  /** What the download button leads to. */
  datatype DownloadAction = NoDownloadURLAlert | OpenURL(url: Url)

  /** `downloadButtonClicked`: opens the recorded link, or only alerts when there is none. */
  function DownloadButtonClicked(p: Prompt): (d: DownloadAction)
    ensures d.NoDownloadURLAlert? <==> p.downloadURL.None?
    ensures d.OpenURL? ==> Some(d.url) == p.downloadURL
  {
    match p.downloadURL
    case None => NoDownloadURLAlert
    case Some(url) => OpenURL(url)
  }

  /**
   `surpressVersionClicked`: appends the recorded tag to the skip list,
   without checking whether it is already there; with no recorded tag
   nothing is written.
   */
  function SurpressVersionClicked(u: Updater, p: Prompt): (v: Updater)
    ensures p.releaseTag.None? ==> v == u
    ensures p.releaseTag.Some? ==> SkippedVersions(v.store) == SkippedVersions(u.store) + [p.releaseTag.value]
    ensures p.releaseTag.Some? ==> SameExcept(u.store, v.store, SkippedVersionsKey)
    ensures v.projectURL == u.projectURL && v.updateClosure == u.updateClosure && v.assetsClosure == u.assetsClosure
  {
    match p.releaseTag
    case None => u
    case Some(tag) => u.(store := SetSkippedVersions(u.store, SkippedVersions(u.store) + [tag]))
  }

  // ---------------------------------------------------------------------------
  // Properties of the prompt
  // ---------------------------------------------------------------------------

  /**
   Suppressing keeps the earlier entries and their order, and adds one
   more copy of the tag, even when the tag is already skipped.
   */
  lemma SuppressAppends(u: Updater, p: Prompt)
    requires p.releaseTag.Some?
    ensures var before := SkippedVersions(u.store);
      var after := SkippedVersions(SurpressVersionClicked(u, p).store);
      && |after| == |before| + 1
      && after[..|before|] == before
      && after[|before|] == p.releaseTag.value
      && multiset(after)[p.releaseTag.value] == multiset(before)[p.releaseTag.value] + 1
  {
  }

  /** Suppressing leaves the auto-check setting as it was. */
  lemma SuppressKeepsAutoCheck(u: Updater, p: Prompt)
    ensures AutoCheckForUpdates(SurpressVersionClicked(u, p).store) == AutoCheckForUpdates(u.store)
  {
  }

  /**
   After a release is shown and suppressed, the updater never offers it
   again, whatever its update predicate says.
   */
  lemma SuppressedNeverOffered(u: Updater, p: Prompt, release: Release)
    requires CanSelect(u.assetsClosure, release.assets)
    ensures !ShouldUpdateTo(SurpressVersionClicked(u, ShowRelease(u, p, release)), release)
  {
  }

  /**
   After suppressing, no later check offers a release with that tag: the
   check either offers a release with a different tag or offers nothing.
   */
  lemma SuppressedTagNeverChecked(u: Updater, p: Prompt, release: Release, releases: seq<Release>, showIfLatest: bool)
    requires CanSelect(u.assetsClosure, release.assets)
    ensures var o := Decide(SurpressVersionClicked(u, ShowRelease(u, p, release)), releases, showIfLatest);
      o.ShowUpdater? ==> o.release.tagName != release.tagName
  {
  }

  /** The prompt a check puts on screen always has a link to download. */
  lemma ShownPromptDownloads(u: Updater, release: Release)
    requires CanSelect(u.assetsClosure, release.assets)
    ensures DownloadButtonClicked(ShowRelease(u, Fresh, release))
      == OpenURL(SelectAsset(u.assetsClosure, release.assets).browserDownloadURL)
  {
  }

  /**
   The default selector's forced unwrap is reachable: a release with no
   assets that the application wants is offered, yet `showRelease` has no
   asset to take, so showing it traps instead of producing a prompt.
   */
  lemma AssetlessOfferTraps(u: Updater, release: Release, showIfLatest: bool)
    requires u.assetsClosure.FirstAsset? && release.assets == []
    requires release.tagName !in SkippedVersions(u.store) && u.updateClosure(release)
    ensures Decide(u, [release], showIfLatest) == ShowUpdater(release)
    ensures !CanSelect(u.assetsClosure, Decide(u, [release], showIfLatest).release.assets)
  {
  }

  /** Dismissing a fresh prompt with suppress writes nothing: it has no tag yet. */
  lemma FreshPromptSuppressesNothing(u: Updater)
    ensures SurpressVersionClicked(u, Fresh) == u
  {
  }
}
